=== FILE: README.md ===
# ALNS for the EVRPTW with wireless charging — a Dafny model of the core

The repository solves the electric vehicle routing problem with time
windows (EVRPTW) by adaptive large neighbourhood search (ALNS). Roads may
carry in-motion (wireless) chargers. This project models three parts of
it and proves properties of each.

* **The instance tables** (`instance.dfy`, module `Instance`). These are the
  parts of the loader that the search depends on:
  * the start depot `D0` and its renamed copy `D0_end`;
  * the travel time of an arc, which is its distance divided by the
    average velocity;
  * the wireless net energy of every arc. This is `h · distance` minus
    `0.9 · distance · coverage`, where coverage is 0, 0.2, 0.4 or 0.6 by
    level and applies to every pair of distinct nodes.
* **The route evaluator** (`evaluator.dfy`, module `Evaluator`, with the
  proofs in `evaluator_facts.dfy`, module `EvaluatorFacts`). It covers:
  * the three feasibility checks `time_energy`, `time` and `energy`;
  * the three extractors of arrival times, arrival charges and departure
    charges;
  * the net-energy table with its fallback `h · distance`.

  Each check walks the route arc by arc, exactly as the Python does. A
  missing dictionary key (`KeyError`) or a division by a zero recharge
  rate makes the check answer `false`, and the time-only and energy-only
  checks have no zero-division path. Each check is also characterised on
  every route by a profile of its walk without rejections, one check at a
  time (a route of fewer than two nodes is always accepted):
  * the time-only check accepts exactly when every raw arrival is at or
    before its node's due date (`EvaluatorFacts.TimeOnlyMatchesProfile`);
  * the energy-only check reads no due date: it accepts exactly when the
    charge extractor succeeds and every arrival charge is at least zero
    (`EvaluatorFacts.EnergyOnlyMatchesProfile`);
  * the combined check with a non-zero recharge rate accepts exactly when
    both hold on the combined profile, where a station's recharge time
    depends on the charge (`EvaluatorFacts.TimeEnergyMatchesProfile`);
  * with a zero rate only one direction is stated: a route that reaches a
    station before its last node with less than a full battery is
    rejected (`EvaluatorFacts.ZeroRateStationFails`).

  `get_energy_consumption`
  (mip_check.py:48-50) is a lookup in the net-energy table: a missing arc
  is a `KeyError`.

  The extractors return a `Result`. They fail in three ways:
  * with `RouteNotFeasible` when the Python raises its own exception;
  * with `MissingKey` for the uncaught `KeyError` on a one-node route
    whose node has no ready time;
  * with `DivisionByZero` for the uncaught `ZeroDivisionError` at a
    station when the recharge rate `g` is 0.
* **The search bookkeeping** (`operators.dfy`, module `Operators`, and
  `search.dfy`, module `Search`). It covers:
  * the five operator pools of records `[weight, reward, uses]`;
  * the weighted draw `random.choices`, as Python's right bisection over
    the cumulative weights (upper bound the last position) with an
    injected uniform draw;
  * the use count charged when an operator is drawn;
  * the three-tier acceptance rule with rewards σ1/σ2/σ3;
  * the exponential-smoothing recalibration `w(1−ρ) + ρ·reward/uses`
    every Nc and Ns iterations;
  * the dispatch `i % NSR`, then `i % NRR` (with nRR rounds), otherwise
    the customer branch;
  * the cooling step `T := T·ε`;
  * the pruning of one empty route `["D0", "D0_end"]` from the best and
    from the current solution after every iteration, on lists that the
    two names may share with each other and with the initial solution
    list that the initial heuristic returns (ALNS.py:37).

  The destroy and repair heuristics, the feasibility test of a whole
  solution, its distance, the acceptance probability `exp(-Δ/T)` and
  every random draw are parameters. They are the fields of
  `Search.Environment` and the values of `Search.Draw`.

The extractors do not test feasibility. They raise only for a missing key
(and, uncaught, in the two cases above). A route that arrives after a due
date or with a negative charge is still reported, value by value
(`EvaluatorFacts.TimeExtractorIgnoresDueDates` and the `Success`
conditions of the extractors).

The arrival-time extractor charges a fixed half battery of recharge time
at every station (mip_check.py:200), while the combined check charges only
the missing charge (mip_check.py:77-80). So the extractor can report an
arrival after the due date on a route the combined check accepts
(`EvaluatorFacts.EstimateCanBeLate`).

`ALNS.run` obtains `initial_solution` from the initial heuristic
(ALNS.py:37) and binds `best_solution` and `prev_solution` to that same
list (ALNS.py:75-76) and prunes with the in-place
`list.remove` (ALNS.py:285-289). While no new best has been found, pruning
therefore also shrinks `initial_solution`, and the initial distance and
size reported at ALNS.py:294-295 are those of the pruned list. While best
and current are one list, that list loses up to two empty routes per
iteration. The model follows this (`Search.PruneLists`,
`Search.InitialListShrinks`, `Search.Run`).

The default periods NSR = 10 and NRR = 6000 have a consequence worth
noting. Every iteration due for route removal (a multiple of 6000) is also
a station iteration (a multiple of 10). The station branch is checked
first, so with the defaults the route-removal branch never runs
(`Search.DefaultRouteBranchNeverRuns`).

## Model

| member | source | states |
|---|---|---|
| Instance.EndDepotRow | file_reader.py:30-32 | the end depot row is the depot row with the name `D0_end` and every other column unchanged; renaming it back gives the depot row itself |
| Instance.TravelTimes | file_reader.py:86-89 | every arc gets a time, and time · velocity equals its distance; a zero velocity with any arc fails (a division by zero) |
| Instance.CoverageFraction | file_reader.py:96-109 | the coverage fraction lies in [0, 0.6], and every level other than light, moderate and high gives 0 |
| Instance.CoverageTable | file_reader.py:111-115 | an arc has a coverage entry exactly when its two nodes are distinct nodes of the instance, and the entry is the level's fraction |
| Instance.WirelessCharge | file_reader.py:117-122 | every arc of the distance table gains 0.9 · distance · coverage (`Instance.ArcCharge`), with coverage 0 where the table has no entry |
| Instance.NetEnergy | file_reader.py:124-131 | net consumption of every arc is rate times distance minus the charge gained, and no other arc is in the table |
| Instance.NetEnergyTable | file_reader.py:93-131 | the loader's net-energy table, arc by arc, in terms of distance, rate and the coverage read with default 0 |
| Instance.DistinctArcNetEnergy | file_reader.py:112-131 | an arc between distinct nodes pays h · d − 0.9 · d · fraction(level) |
| Instance.SelfArcNetEnergy | file_reader.py:114-120 | a self-pair (n, n) has no coverage entry, so it pays the full h · d |
| Instance.ArcChargeMonotone | file_reader.py:119-122 | more coverage never lowers the charge gained on a non-negative distance |
| Instance.HigherCoverageNeverCostsMore | file_reader.py:96-131 | with non-negative distances, a level with at least as much coverage never makes any arc cost more net energy |
| Evaluator.NetEnergySource | mip_check.py:27-34 | the given table is used as it is; without one, every arc of the distance table costs h · distance and no other arc is present |
| Evaluator.NoCoverageMatchesFallback | mip_check.py:31-34 | at a coverage level with fraction 0 the loader's table equals the evaluator's fallback table |
| Evaluator.TimeEnergyFrom | mip_check.py:66-104 | a route suffix that passes the combined walk has every table entry the walk reads, on every arc |
| Evaluator.TimeEnergy | mip_check.py:52-108 | fewer than two nodes is feasible; feasibility needs the start's ready time and every entry read on every arc (a missing key answers false) |
| Evaluator.TimeOnlyFrom | mip_check.py:122-141 | a suffix that passes the time-only walk has the service, travel, due-date and ready-time entries on every arc |
| Evaluator.TimeOnly | mip_check.py:110-144 | fewer than two nodes is feasible; feasibility needs the start's ready time and the time entries on every arc |
| Evaluator.EnergyOnlyFrom | mip_check.py:158-174 | a suffix that passes the energy walk has a net-energy entry on every arc |
| Evaluator.EnergyOnly | mip_check.py:146-177 | fewer than two nodes is feasible; feasibility needs a net-energy entry on every arc and reads no time table |
| Evaluator.ArrivalsFrom | mip_check.py:232-244 | defined exactly when every later arc has a net-energy entry; each charge is the previous node's leaving charge (full at a station) minus the arc's net consumption |
| Evaluator.EnergyExtractor | mip_check.py:218-249 | succeeds exactly when every arc has a net-energy entry, and otherwise fails with "not feasible"; one value per node, starting at Q, with the recurrence charge[k+1] = leaving(k) − net(k, k+1) |
| Evaluator.DeparturesFrom | mip_check.py:264-279 | defined exactly when every later arc has a net-energy entry, with one value per remaining node |
| Evaluator.DepartureExtractor | mip_check.py:251-282 | succeeds exactly when every arc has a net-energy entry, and otherwise fails with "not feasible"; one value per node |
| Evaluator.ClocksFrom | mip_check.py:193-213 | succeeds exactly when every later arc has the extractor's entries; a division-by-zero fault happens only with g = 0; never a missing-key fault; one clock per later node, the first being max(clock + dwell + travel, ready) |
| Evaluator.ClocksRecurrence | mip_check.py:197-211 | every arrival time after the first is max(previous + dwell + travel, ready time of the node) |
| Evaluator.TimeExtractor | mip_check.py:179-216 | succeeds exactly when the start has a ready time and every arc has the extractor's entries; a missing-key fault happens exactly for a one-node route; division by zero only with g = 0; times start at the ready time and follow the max(previous + dwell + travel, ready) recurrence |
| EvaluatorFacts.CombinedStepBoundsTimeStep | mip_check.py:74-94 | with g ≥ 0, an arc the combined check passes from a later clock is passed by the time-only check, arriving no later |
| EvaluatorFacts.CombinedClockBoundsTimeClock | mip_check.py:66-94 | a suffix the combined walk passes is passed by the time-only walk from any earlier clock |
| EvaluatorFacts.CombinedImpliesTimeOnly | mip_check.py:52-144 | with g ≥ 0, every route the combined check accepts is accepted by the time-only check |
| EvaluatorFacts.CombinedChargeIsEnergyCharge | mip_check.py:96-102 | the combined walk's charge is the energy walk's charge, so a passing suffix passes the energy walk |
| EvaluatorFacts.CombinedImpliesEnergyOnly | mip_check.py:52-177 | every route the combined check accepts is accepted by the energy-only check |
| EvaluatorFacts.RechargeTimeMatters | mip_check.py:74-81 | a concrete route through a station passes both single checks yet fails the combined one, because of the recharge time the time-only check ignores; the converse of the two implications fails |
| Evaluator.RawArrivalsFrom | mip_check.py:122-139 | defined exactly when every later arc has the time-only entries; the first raw arrival is clock + dwell + travel, and each later one is the previous raised to its node's ready time, plus dwell and travel (stations add no dwell) |
| Evaluator.TimeProfile | mip_check.py:116-141 | defined exactly when the start has a ready time and every arc has the time-only entries; one raw arrival per node, starting at the ready time, each next one the previous raised to the ready time plus dwell and travel |
| EvaluatorFacts.TimeOnlyFromProfile | mip_check.py:122-141 | the time-only walk passes from node k iff the raw-arrival profile exists and every raw arrival is at or before its node's due date |
| EvaluatorFacts.TimeOnlyMatchesProfile | mip_check.py:110-144 | in both directions, on every route: the time-only check accepts iff the route has fewer than two nodes, or the profile exists and every raw arrival is ≤ its due date (arrival exactly at the due date accepted, an early arrival waits for the ready time) |
| Evaluator.CombinedArrivalsFrom | mip_check.py:66-98 | defined exactly when every later arc has every entry the combined walk reads; the first entry is the clock plus the dwell for the arrival charge plus travel, with the leaving charge (full at a station) minus the arc's net energy |
| Evaluator.CombinedArrivalsRecurrence | mip_check.py:74-98 | each later raw arrival is the previous one raised to its node's ready time, plus the recharge time for the charge missing there (at a station) or the service time, plus travel; each later charge is the previous leaving charge minus the arc's net energy |
| Evaluator.CombinedProfile | mip_check.py:63-98 | defined exactly when the start has a ready time and every arc has every entry the combined walk reads; one entry per node, starting at the ready time with a full battery, each next one following the recurrence |
| EvaluatorFacts.CombinedStepByProfile | mip_check.py:71-102 | with g ≠ 0 and every entry present, one combined arc passes exactly when its raw arrival is at or before the due date and its arrival charge is not below zero, and then continues from the arrival raised to the ready time |
| EvaluatorFacts.TimeEnergyFromProfile | mip_check.py:66-104 | with g ≠ 0, the combined walk passes from node k iff the combined profile from k exists and every node is reached on time with a charge not below zero |
| EvaluatorFacts.TimeEnergyMatchesProfile | mip_check.py:58-108 | in both directions, on every route, for g ≠ 0: the combined check accepts iff the route has fewer than two nodes, or the combined profile exists and every node after the first is reached at or before its due date with a charge not below zero |
| EvaluatorFacts.ZeroRateFrom | mip_check.py:74-102 | with g = 0, a suffix the combined walk passes has its arrival-charge profile, and every non-final station on it is reached with a full battery |
| EvaluatorFacts.ZeroRateStationFails | mip_check.py:74-108 | with g = 0, the combined check answers false for a route that reaches a station (other than the last node) with less than a full battery |
| EvaluatorFacts.EstimateCanBeLate | mip_check.py:52-216 | a concrete route the combined check accepts on which the arrival-time extractor reports 7 at a node due at 3, because of its fixed Q · 0.5 / g station dwell |
| EvaluatorFacts.EnergyOnlyFromMonotone | mip_check.py:158-172 | a net-energy table that costs no more on any arc, and a charge no lower, keep an energy-feasible suffix feasible |
| EvaluatorFacts.CombinedStepMonotone | mip_check.py:71-102 | with g ≥ 0, one combined arc with a cheaper table, an earlier clock and a higher charge still passes, arriving no later with no less charge |
| EvaluatorFacts.CombinedFromMonotone | mip_check.py:66-104 | with g ≥ 0, a cheaper table, an earlier clock and a higher charge keep a combined-feasible suffix feasible |
| EvaluatorFacts.CheaperArcsKeepFeasible | mip_check.py:52-177 | a net-energy table that costs no more on any arc keeps every energy-feasible route energy-feasible and, with g ≥ 0, every combined-feasible route combined-feasible |
| EvaluatorFacts.MoreCoverageKeepsFeasible | file_reader.py:96-131 | with non-negative distances, a route feasible under one coverage level stays feasible (energy-only, and combined with g ≥ 0) under any level with at least as much coverage |
| EvaluatorFacts.SingleArcWindow | mip_check.py:58-104 | for a two-node route from a customer, in both directions: time-only feasible iff ready + service + travel ≤ due; combined feasible iff that and Q − net ≥ 0 |
| EvaluatorFacts.CombinedPrefixFrom | mip_check.py:66-104 | a suffix walk that passes still passes on any prefix of the route |
| EvaluatorFacts.CombinedPrefixClosed | mip_check.py:66-104 | every prefix of a feasible route is feasible |
| EvaluatorFacts.WithoutStationService | mip_check.py:74-84 | the parameter set with every station's service time removed; every other service time keeps its value and every other field is unchanged |
| EvaluatorFacts.CombinedIgnoresStationServiceFrom | mip_check.py:74-84 | the combined walk never reads a station's service time |
| EvaluatorFacts.TimeOnlyIgnoresStationServiceFrom | mip_check.py:126-128 | the time-only walk never reads a station's service time |
| EvaluatorFacts.StationServiceNeverRead | mip_check.py:52-144 | dropping every station's service time changes neither time check |
| EvaluatorFacts.ClocksReadOnlyClockTables | mip_check.py:193-211 | the arrival-time walk depends only on stations, service, ready and travel times, Q and g |
| EvaluatorFacts.TimeExtractorIgnoresDueDates | mip_check.py:179-216 | replacing the due-date table changes neither the arrival times nor the fault: late arrivals are reported, not rejected |
| EvaluatorFacts.ArrivalsNeverEarly | mip_check.py:209-211 | every reported arrival time is at or after the node's ready time |
| EvaluatorFacts.EnergyOnlyFromProfile | mip_check.py:158-172 | the energy walk passes from node k iff the arrival-charge profile exists and is non-negative throughout |
| EvaluatorFacts.EnergyOnlyMatchesProfile | mip_check.py:146-249 | in both directions: the energy check accepts a route iff the arrival-charge extractor succeeds on it and reports no negative charge after the start |
| EvaluatorFacts.DeparturesFollowArrivals | mip_check.py:264-277 | each departure charge is the leaving charge (full at a station) of the matching arrival charge |
| EvaluatorFacts.DepartureIsLeavingCharge | mip_check.py:218-282 | on a route with all net-energy entries both extractors succeed, departure[k] is the leaving charge of arrival[k], and arrival[k+1] = departure[k] − net(k, k+1) |
| Operators.InitPool | ALNS.py:63-72 | one record per operator name, in order, with weight 1, no reward and no uses |
| Operators.InitPools | ALNS.py:50-72 | each of the five pools holds its operator names (ALNS.py:297-326) with record [1, 0, 0], is non-empty, unused and healthy |
| Operators.HealthyIsDrawable | ALNS.py:87-91 | a non-empty pool of positive weights has a positive total, so a draw never raises |
| Operators.SameWeightsKeepDrawable | ALNS.py:93-95 | a change that keeps the weights keeps a pool drawable, and a pool that was not drawable stays so |
| Operators.PickFrom | ALNS.py:88 | the reference scan: the first position whose cumulative weight exceeds the target, and the last position when there is none |
| Operators.Bisect | ALNS.py:88 | the right bisection inside `random.choices` over the cumulative weights between lo and hi always returns a position in [lo, hi]; which position it finds is stated by `Operators.BisectFindsFirst` |
| Operators.BisectFindsFirst | ALNS.py:88 | with non-negative weights the bisection's result has a cumulative weight above the target unless it is the upper bound, and every position before it has one at or below the target |
| Operators.BisectIsScan | ALNS.py:88 | with non-negative weights the bisection over the whole pool picks the same position as the reference scan, for every target |
| Operators.NegativeWeightBreaksScan | ALNS.py:87-88 | with weights 3, −4, 6 (cumulative 3, −1, 5) and target 2, the bisection returns the last position while the scan returns the first |
| Operators.Pick | ALNS.py:87-88 | the draw fails exactly when the pool is not drawable (a ValueError for a non-positive total, an IndexError for an empty pool), and otherwise returns a position of the pool found by the bisection |
| Operators.PickFollowsWeights | ALNS.py:87-91 | in both directions: operator j is drawn iff the scaled draw falls in [prefix(j), prefix(j+1)), so each operator's chance is its share of the total weight |
| Operators.Charge | ALNS.py:93-95 | the drawn record gains one use; every other record and all weights and rewards are unchanged |
| Operators.Credit | ALNS.py:113-114 | the drawn record's reward grows by the amount; every other record and all weights and uses are unchanged |
| Operators.ChargeAddsOneUse | ALNS.py:94-95 | a charge raises the pool's total uses by exactly one |
| Operators.ChargeKeepsReward | ALNS.py:94-95 | a charge leaves the pool's total reward unchanged |
| Operators.CreditAddsReward | ALNS.py:113-134 | a credit raises the pool's total reward by exactly the amount |
| Operators.CreditKeepsUses | ALNS.py:113-134 | a credit leaves the pool's total uses unchanged |
| Operators.ChargeKeepsHealthy | ALNS.py:94-95 | a charge keeps a healthy pool healthy |
| Operators.CreditKeepsHealthy | ALNS.py:113-134 | a non-negative credit keeps a healthy pool healthy |
| Operators.Recalibrated | ALNS.py:242-248 | a used record's weight becomes w(1 − ρ) + ρ · reward / uses, an unused record keeps its weight, and reward and uses start over at 0 |
| Operators.Recalibrate | ALNS.py:241-248 | every record is recalibrated in place, and the resulting pool is unused |
| Operators.RecalibratedBetween | ALNS.py:243-244 | for ρ in [0, 1], the new weight lies between the old weight and the mean reward per use |
| Operators.RecalibrateUnusedIsIdentity | ALNS.py:241-248 | recalibrating a pool with nothing recorded changes nothing |
| Operators.RecalibrateIdempotent | ALNS.py:241-248 | recalibrating twice in a row gives the same pool as recalibrating once |
| Operators.RecalibrateKeepsHealthy | ALNS.py:243-244 | for ρ in [0, 1), weights stay positive, so the pool stays drawable |
| Search.BeatsIsStrictTotalOrder | ALNS.py:106-110 | "fewer routes, or as many and less distance" is irreflexive, transitive and total on distinct objectives |
| Search.DefaultsAreValid | ALNS.py:29-32 | the default parameters (`Search.Defaults`: σ = 30/20/13, ρ = 0.45, ε = 0.9994, μ = 0.05, N = 25000, Nc = 200, Ns = 1000, NRR = 6000, NSR = 10, nRR = 1250) have positive periods, non-negative rewards and 0 ≤ ρ < 1 |
| Search.Judge | ALNS.py:104-134 | infeasible means rejected; new best iff it beats the best; new current iff not best and equally long with strictly less distance; annealed iff equally long, strictly more distance and draw ≤ probability |
| Search.JudgeAgreesWithOrder | ALNS.py:116-134 | a new current solution beats the current one, an annealed one is beaten by it, a candidate equal to the current one is rejected, and the draw decides only the strictly-worse case |
| Search.RepairEach | ALNS.py:99-101 | station insertion is applied to every route of the removal result, in order, with nothing added or dropped |
| Search.Candidate | ALNS.py:97-202 | the station branch repairs route by route (as many routes as the removal left); the route and customer branches apply their removal, then customer insertion |
| Search.Round | ALNS.py:85-134 | one round: the operators are drawn by weight, the candidate is built and judged, the state follows the verdict, both operators are charged and credited with the verdict's reward, and the other pools are untouched |
| Search.RoundBookkeeping | ALNS.py:93-134 | each drawn pool gains exactly one use and the verdict's reward; no weight changes; an infeasible candidate earns nothing and changes neither solution; the best solution never gets worse |
| Search.RoundKeepsHealthy | ALNS.py:113-134 | with non-negative rewards and 0 ≤ ρ < 1 a round keeps every pool healthy |
| Search.RoundKeepsCoherent | ALNS.py:104-134 | a round leaves the initial list alone, and after it best and current hold the same routes when they are one list, and best holds the initial list's routes when it is that list |
| Search.Burst | ALNS.py:136-185 | nRR route-removal rounds charge exactly nRR uses to each of the two pools, touch no other pool, change no weight, temperature or initial list, keep the sharing coherent, and never worsen the best solution |
| Search.BranchOf | ALNS.py:85-187 | the station branch runs iff i % NSR = 0; the route branch runs iff it does not and i % NRR = 0 |
| Search.RouteBranchShadowed | ALNS.py:85-136 | when NSR divides NRR, the route-removal branch never runs |
| Search.DefaultRouteBranchNeverRuns | ALNS.py:30-136 | with the default periods 10 and 6000 the route-removal branch never runs |
| Search.SearchPhase | ALNS.py:84-236 | every pool other than the removal and insertion pools of iteration i's branch is unchanged; those two gain one use each (nRR on the route branch); every weight, the temperature and the initial list are kept, the sharing stays coherent, and the best solution never worsens |
| Search.Maintain | ALNS.py:238-281 | every Nc-th iteration the two customer pools and the route pool are recalibrated, every Ns-th the two station pools, and nothing else changes |
| Search.MaintainKeepsHealthy | ALNS.py:238-281 | for 0 ≤ ρ < 1, recalibration keeps healthy pools healthy |
| Search.Prune | ALNS.py:285-289 | the first ["D0", "D0_end"] is removed when there is one, and the solution is unchanged otherwise |
| Search.PruneRemovesOneEmptyRoute | ALNS.py:285-289 | pruning removes exactly one copy of the empty route when there is one, keeps the multiplicity of every other route, and shortens the solution by one exactly then |
| Search.PruneNeverWorsens | ALNS.py:285-289 | the pruned solution is never worse in the lexicographic objective |
| Search.PruneOnlyRemovesEmpties | ALNS.py:285-289 | pruning takes out only empty routes, and at most one |
| Search.PruneLists | ALNS.py:285-289 | the two `remove` calls on lists: sharing, pools and temperature are kept, the contents stay coherent with the sharing, a best solution without an empty route is unchanged, and the initial list changes only while best is that list |
| Search.PruneListsRemovesEmpties | ALNS.py:285-289 | only empty routes are removed: at most one from best, two when best and current share their list, and the initial list only loses empty routes and never grows |
| Search.PruneListsNeverWorsens | ALNS.py:285-289 | the best solution after both removals is never worse |
| Search.InitialListShrinks | ALNS.py:75-289 | an initial solution with two empty routes and one served route is down to the served route after the first pruning, because the current, best and initial solution are one list |
| Search.HealthyPoolsDrawable | ALNS.py:85-194 | healthy pools can always be drawn from, whatever the branch of the iteration |
| Search.Iteration | ALNS.py:81-289 | one iteration multiplies the temperature by ε, never worsens the best solution, keeps the pools healthy and the sharing coherent, and takes only empty routes out of the initial list (none when it has none) |
| Search.CooledIsPower | ALNS.py:283 | n cooling steps (`Search.Cooled`, each one `Search.Cool`, T := ε · T) multiply the starting temperature by εⁿ |
| Search.CoolingFalls | ALNS.py:283 | for 0 < ε < 1 and a positive start, the temperature stays positive and strictly decreases |
| Search.Start | ALNS.py:39-76 | the run starts with the initial list itself as current and best (one shared list), fresh unused pools, and the start temperature |
| Search.IterationKeepsInvariant | ALNS.py:81-289 | iteration n + 1 can always draw its operators and keeps the run's invariant (healthy pools, best no worse than initial, temperature T₀εⁿ, coherent sharing, an initial list that has only lost empty routes) |
| Search.Advance | ALNS.py:81-289 | iteration n + 1 of a run leaves a state satisfying the run's invariant after n + 1 iterations |
| Search.Run | ALNS.py:29-295 | after N iterations the best is no worse than the initial solution, the temperature is T₀ · εᴺ with T₀ = −μ · d₀ / ln 0.5 (`Search.InitialTemperature`, ALNS.py:41), every pool is still drawable, the report gives the best solution's distance and size and those of the initial list as it is after the run, which has lost only empty routes and equals the initial solution when that has none |

## Left out

- `update_times` (mip_check.py:36-46) draws normal noise with numpy. The random perturbation of travel times is outside the model.
- The instance loader's CSV parsing, station replication and Euclidean distances (file_reader.py:24-89). The distance table is taken as given, because parsing and `sqrt` are not part of the core.
- The standard deviation of time windows (file_reader.py:133-137) feeds only `update_times`.
- The destroy and repair heuristics, the whole-solution feasibility test, `total_distance_list` and the initial-solution heuristic are not part of this model. They are function-valued parameters of `Search.Environment`.
- The calls to `random()`, the random part of `choices`, `exp` and `log` are parameters. `Draw` carries the uniform draws, `Environment.acceptance` stands for `exp(-Δ/T)`, and `Config.inverseLogHalf` holds −1/ln 0.5.
- The wall-clock `time()` calls and the reported duration are left out.
- The heuristics are taken to return new lists and leave their argument alone. If one of them mutated `prev_solution` in place, the shared lists would change with it. The heuristics are not part of this model.
- Floating-point rounding is not modelled: all quantities are exact reals.
- Search.Run: requires 0 ≤ ρ < 1, non-negative σ1/σ2/σ3 and positive Nc, Ns, NRR and NSR. The source accepts any values. Zero periods raise a `ZeroDivisionError` there. With ρ ≥ 1 or negative rewards a weight can reach 0 or below, and `choices` can then raise or misbehave. The model states its run properties only where every draw is well defined.
- Search.Round: the acceptance probability is an opaque parameter. The `ZeroDivisionError` that `exp(-Δ/T)` raises when T = 0 (μ = 0 or an initial distance of 0) is not modelled.
- Operators.PickFollowsWeights: the "picked with probability weight / total" statement holds for non-negative weights only. With a negative weight the cumulative weights are not sorted, and the bisection (like `choices` itself) can pick a different operator than the first whose cumulative weight exceeds the draw (`Operators.NegativeWeightBreaksScan`). Negative weights arise only outside the parameters `Search.Run` accepts.

=== FILE: evaluator.dfy ===
/**
  The route feasibility evaluator: a forward simulation of clock and battery
  charge along one route (a sequence of node ids), in three variants
  (combined, time only, energy only), and the three extractors that replay
  the simulation and return one value per node.

  The boolean checks never raise: a missing table entry, or a division by a
  zero recharge rate in the combined check, makes them answer false.
*/
module Evaluator {
  import opened Outcomes
  import opened Instance

  type Route = seq<NodeId>

  /** The parts of the instance the evaluator reads. */
  datatype Params = Params(
    stations: set<NodeId>,
    readyTime: map<NodeId, real>,
    dueDate: map<NodeId, real>,
    serviceTime: map<NodeId, real>,
    travelTime: map<Arc, real>,
    netEnergy: map<Arc, real>,
    capacity: real,      // Q, the battery capacity
    rechargeRate: real)  // g, the divisor turning missing charge into recharge time

  /** Errors the extractors raise instead of returning a sequence. */
  datatype Fault =
    | RouteNotFeasible  // a missing table entry inside the replay
    | MissingKey        // the start node of a one-node route has no ready time
    | DivisionByZero    // a station visit with a zero recharge rate

  /**
    The net energy table the evaluator uses: the loader's table when one is
    supplied, otherwise consumption rate times distance for every arc.
  */
  function NetEnergySource(given: Option<map<Arc, real>>, dist: map<Arc, real>, h: real): (net: map<Arc, real>)
    ensures given.Some? ==> net == given.value
    ensures given.None? ==> net.Keys == dist.Keys
    ensures given.None? ==> forall a :: a in net ==> net[a] == h * dist[a]
  {
    match given
    case Some(table) => table
    case None => map a | a in dist :: h * dist[a]
  }

  /** Without coverage the loader's table coincides with the evaluator's fallback. */
  lemma NoCoverageMatchesFallback(dist: map<Arc, real>, nodes: seq<NodeId>, level: string, h: real)
    requires CoverageFraction(level) == 0.0
    ensures NetEnergyTable(dist, nodes, level, h) == NetEnergySource(None, dist, h)
  {
    var table := NetEnergyTable(dist, nodes, level, h);
    var fallback := NetEnergySource(None, dist, h);
    forall a | a in dist
      ensures table[a] == fallback[a]
    {
      var c := CoverageOf(CoverageTable(nodes, level), a);
      assert c == 0.0;
      assert ArcCharge(dist[a], c) == 0.0;
    }
  }

  function Max(a: real, b: real): real
  {
    if a < b then b else a
  }

  /** Charge when leaving a node: a station recharges to full capacity. */
  function LeavingCharge(p: Params, u: NodeId, charge: real): real
  {
    if u in p.stations then p.capacity else charge
  }

  /** Vehicle state on arrival at a node, after any waiting for its ready time. */
  datatype Probe = Probe(clock: real, charge: real)

  // ---------------------------------------------------------------------
  // Single arcs
  // ---------------------------------------------------------------------

  /** Every table entry the combined check reads for the arc (u, v). */
  predicate CombinedEntries(p: Params, u: NodeId, v: NodeId)
  {
    && (u, v) in p.travelTime
    && (u !in p.stations ==> u in p.serviceTime)
    && v in p.dueDate
    && v in p.readyTime
    && (u, v) in p.netEnergy
  }

  /** Every table entry the time-only check reads for the arc (u, v). */
  predicate TimeEntries(p: Params, u: NodeId, v: NodeId)
  {
    && (u !in p.stations ==> u in p.serviceTime)
    && (u, v) in p.travelTime
    && v in p.dueDate
    && v in p.readyTime
  }

  /** One arc of the combined check; None where the check answers false. */
  function CombinedStep(p: Params, u: NodeId, v: NodeId, s: Probe): Option<Probe>
  {
    var missing := p.capacity - s.charge;
    if (u, v) !in p.travelTime then None
    else if u in p.stations && missing > 0.0 && p.rechargeRate == 0.0 then None
    else if u !in p.stations && u !in p.serviceTime then None
    else
      var dwell :=
        if u !in p.stations then p.serviceTime[u]
        else if missing > 0.0 then missing / p.rechargeRate
        else 0.0;
      var arrival := s.clock + dwell + p.travelTime[(u, v)];
      if v !in p.dueDate || arrival > p.dueDate[v] then None
      else if v !in p.readyTime || (u, v) !in p.netEnergy then None
      else
        var left := LeavingCharge(p, u, s.charge) - p.netEnergy[(u, v)];
        if left < 0.0 then None
        else Some(Probe(Max(arrival, p.readyTime[v]), left))
  }

  /** One arc of the time-only check: stations add no time at all. */
  function TimeStep(p: Params, u: NodeId, v: NodeId, clock: real): Option<real>
  {
    if u !in p.stations && u !in p.serviceTime then None
    else if (u, v) !in p.travelTime then None
    else
      var leaving := if u in p.stations then clock else clock + p.serviceTime[u];
      var arrival := leaving + p.travelTime[(u, v)];
      if v !in p.dueDate || arrival > p.dueDate[v] || v !in p.readyTime then None
      else Some(Max(arrival, p.readyTime[v]))
  }

  /** Charge on arrival at v after leaving u with the given charge; None without a table entry. */
  function ArrivalCharge(p: Params, u: NodeId, v: NodeId, charge: real): Option<real>
  {
    if (u, v) !in p.netEnergy then None
    else Some(LeavingCharge(p, u, charge) - p.netEnergy[(u, v)])
  }

  /** One arc of the energy-only check. */
  function EnergyStep(p: Params, u: NodeId, v: NodeId, charge: real): Option<real>
  {
    match ArrivalCharge(p, u, v, charge)
    case None => None
    case Some(left) => if left < 0.0 then None else Some(left)
  }

  // ---------------------------------------------------------------------
  // The three checks
  // ---------------------------------------------------------------------

  /** The combined check from node k on, arriving there in state s. */
  function TimeEnergyFrom(p: Params, route: Route, k: nat, s: Probe): (ok: bool)
    requires k < |route|
    ensures ok ==> forall j :: k <= j < |route| - 1 ==> CombinedEntries(p, route[j], route[j + 1])
    decreases |route| - k
  {
    if k == |route| - 1 then true
    else
      match CombinedStep(p, route[k], route[k + 1], s)
      case None => false
      case Some(next) => TimeEnergyFrom(p, route, k + 1, next)
  }

  /**
    The combined time-and-energy check: start at the first node's ready time
    with a full battery. A route with fewer than two nodes is feasible; any
    missing table entry makes the route infeasible.
  */
  function TimeEnergy(p: Params, route: Route): (ok: bool)
    ensures |route| < 2 ==> ok
    ensures ok && |route| >= 2 ==> route[0] in p.readyTime
    ensures ok ==> forall j :: 0 <= j < |route| - 1 ==> CombinedEntries(p, route[j], route[j + 1])
  {
    if |route| < 2 then true
    else if route[0] !in p.readyTime then false
    else TimeEnergyFrom(p, route, 0, Probe(p.readyTime[route[0]], p.capacity))
  }

  /** The time-only check from node k on, with the given clock there. */
  function TimeOnlyFrom(p: Params, route: Route, k: nat, clock: real): (ok: bool)
    requires k < |route|
    ensures ok ==> forall j :: k <= j < |route| - 1 ==> TimeEntries(p, route[j], route[j + 1])
    decreases |route| - k
  {
    if k == |route| - 1 then true
    else
      match TimeStep(p, route[k], route[k + 1], clock)
      case None => false
      case Some(next) => TimeOnlyFrom(p, route, k + 1, next)
  }

  /** The time-only check. */
  function TimeOnly(p: Params, route: Route): (ok: bool)
    ensures |route| < 2 ==> ok
    ensures ok && |route| >= 2 ==> route[0] in p.readyTime
    ensures ok ==> forall j :: 0 <= j < |route| - 1 ==> TimeEntries(p, route[j], route[j + 1])
  {
    if |route| < 2 then true
    else if route[0] !in p.readyTime then false
    else TimeOnlyFrom(p, route, 0, p.readyTime[route[0]])
  }

  /** The energy-only check from node k on, arriving there with the given charge. */
  function EnergyOnlyFrom(p: Params, route: Route, k: nat, charge: real): (ok: bool)
    requires k < |route|
    ensures ok ==> forall j :: k <= j < |route| - 1 ==> (route[j], route[j + 1]) in p.netEnergy
    decreases |route| - k
  {
    if k == |route| - 1 then true
    else
      match EnergyStep(p, route[k], route[k + 1], charge)
      case None => false
      case Some(next) => EnergyOnlyFrom(p, route, k + 1, next)
  }

  /** The energy-only check: start with a full battery. */
  function EnergyOnly(p: Params, route: Route): (ok: bool)
    ensures |route| < 2 ==> ok
    ensures ok ==> forall j :: 0 <= j < |route| - 1 ==> (route[j], route[j + 1]) in p.netEnergy
  {
    if |route| < 2 then true
    else EnergyOnlyFrom(p, route, 0, p.capacity)
  }

  // ---------------------------------------------------------------------
  // The time-only walk as a profile of raw arrival times
  // ---------------------------------------------------------------------

  /** Time the time-only check spends at u: nothing at a station, the service time elsewhere. */
  function TimeDwell(p: Params, u: NodeId): real
  {
    if u in p.stations then 0.0
    else if u in p.serviceTime then p.serviceTime[u]
    else 0.0
  }

  /** The clock after arriving at v at time t and waiting for v's ready time. */
  function Settled(p: Params, v: NodeId, t: real): real
  {
    if v in p.readyTime then Max(t, p.readyTime[v]) else t
  }

  /**
    Raw arrival times (before any waiting) at nodes k+1, k+2, ... of the
    time-only walk, leaving node k's arrival processing at the given clock.
    No due date is compared: this is the walk without its rejections.
  */
  function RawArrivalsFrom(p: Params, route: Route, k: nat, clock: real): (r: Option<seq<real>>)
    requires k < |route|
    ensures r.Some? <==> forall j :: k <= j < |route| - 1 ==> TimeEntries(p, route[j], route[j + 1])
    ensures r.Some? ==> |r.value| == |route| - 1 - k
    ensures r.Some? && k < |route| - 1 ==>
      r.value[0] == clock + TimeDwell(p, route[k]) + p.travelTime[(route[k], route[k + 1])]
    ensures r.Some? ==> forall j :: k < j < |route| - 1 ==>
      r.value[j - k] ==
        Settled(p, route[j], r.value[j - k - 1]) + TimeDwell(p, route[j]) + p.travelTime[(route[j], route[j + 1])]
    decreases |route| - k
  {
    if k == |route| - 1 then Some([])
    else
      var u, v := route[k], route[k + 1];
      if !TimeEntries(p, u, v) then None
      else
        var arrival := clock + TimeDwell(p, u) + p.travelTime[(u, v)];
        match RawArrivalsFrom(p, route, k + 1, Max(arrival, p.readyTime[v]))
        case None => None
        case Some(rest) => Some([arrival] + rest)
  }

  /**
    Raw arrival time at every node of the time-only walk: entry 0 is the
    first node's ready time, and entry k+1 is entry k raised to node k's
    ready time, plus node k's dwell, plus the travel time of the arc.
  */
  function TimeProfile(p: Params, route: Route): (r: Option<seq<real>>)
    ensures r.Some? <==>
      route == [] || (route[0] in p.readyTime && forall j :: 0 <= j < |route| - 1 ==> TimeEntries(p, route[j], route[j + 1]))
    ensures r.Some? ==> |r.value| == |route|
    ensures r.Some? && route != [] ==> r.value[0] == p.readyTime[route[0]]
    ensures r.Some? ==> forall k :: 0 <= k < |route| - 1 ==>
      r.value[k + 1] == Settled(p, route[k], r.value[k]) + TimeDwell(p, route[k]) + p.travelTime[(route[k], route[k + 1])]
  {
    if route == [] then Some([])
    else if route[0] !in p.readyTime then None
    else
      var start := p.readyTime[route[0]];
      match RawArrivalsFrom(p, route, 0, start)
      case None => None
      case Some(rest) =>
        var r := [start] + rest;
        assert forall k :: 1 <= k < |route| ==> r[k] == rest[k - 1];
        Some(r)
  }

  // ---------------------------------------------------------------------
  // The combined walk as a profile of raw arrivals and arrival charges
  // ---------------------------------------------------------------------

  /**
    Time the combined check spends at u when it arrives with the given
    charge: at a station, the missing charge divided by the recharge rate
    (nothing when the battery is full), elsewhere the service time. A zero
    rate with charge missing is where the check answers false; the dwell
    is then 0, and the profile lemmas exclude that case.
  */
  function CombinedDwell(p: Params, u: NodeId, charge: real): real
  {
    if u in p.stations then
      (if p.capacity - charge > 0.0 && p.rechargeRate != 0.0 then (p.capacity - charge) / p.rechargeRate else 0.0)
    else if u in p.serviceTime then p.serviceTime[u]
    else 0.0
  }

  /**
    Raw arrival time (before any waiting) and arrival charge at nodes k+1,
    k+2, ... of the combined walk, from state s at node k (clock after
    waiting, charge on arrival). Neither due dates nor negative charges are
    rejected: this is the walk without its rejections.
  */
  function CombinedArrivalsFrom(p: Params, route: Route, k: nat, s: Probe): (r: Option<seq<Probe>>)
    requires k < |route|
    ensures r.Some? <==> forall j :: k <= j < |route| - 1 ==> CombinedEntries(p, route[j], route[j + 1])
    ensures r.Some? ==> |r.value| == |route| - 1 - k
    ensures r.Some? && k < |route| - 1 ==>
      && r.value[0].clock == s.clock + CombinedDwell(p, route[k], s.charge) + p.travelTime[(route[k], route[k + 1])]
      && r.value[0].charge == LeavingCharge(p, route[k], s.charge) - p.netEnergy[(route[k], route[k + 1])]
    decreases |route| - k
  {
    if k == |route| - 1 then Some([])
    else
      var u, v := route[k], route[k + 1];
      if !CombinedEntries(p, u, v) then None
      else
        var arrival := s.clock + CombinedDwell(p, u, s.charge) + p.travelTime[(u, v)];
        var left := LeavingCharge(p, u, s.charge) - p.netEnergy[(u, v)];
        match CombinedArrivalsFrom(p, route, k + 1, Probe(Max(arrival, p.readyTime[v]), left))
        case None => None
        case Some(rest) => Some([Probe(arrival, left)] + rest)
  }

  /** Each raw arrival and arrival charge after the first follows from the one before it. */
  lemma {:induction false} CombinedArrivalsRecurrence(p: Params, route: Route, k: nat, s: Probe)
    requires k < |route| && CombinedArrivalsFrom(p, route, k, s).Some?
    ensures var r := CombinedArrivalsFrom(p, route, k, s).value;
      forall j :: k < j < |route| - 1 ==>
        && r[j - k].clock ==
             Settled(p, route[j], r[j - k - 1].clock) + CombinedDwell(p, route[j], r[j - k - 1].charge)
             + p.travelTime[(route[j], route[j + 1])]
        && r[j - k].charge == LeavingCharge(p, route[j], r[j - k - 1].charge) - p.netEnergy[(route[j], route[j + 1])]
    decreases |route| - k
  {
    if k < |route| - 1 {
      var u, v := route[k], route[k + 1];
      var arrival := s.clock + CombinedDwell(p, u, s.charge) + p.travelTime[(u, v)];
      var left := LeavingCharge(p, u, s.charge) - p.netEnergy[(u, v)];
      var next := Probe(Max(arrival, p.readyTime[v]), left);
      var tail := CombinedArrivalsFrom(p, route, k + 1, next).value;
      var r := CombinedArrivalsFrom(p, route, k, s).value;
      assert r == [Probe(arrival, left)] + tail;
      CombinedArrivalsRecurrence(p, route, k + 1, next);
      forall j | k < j < |route| - 1
        ensures r[j - k].clock ==
             Settled(p, route[j], r[j - k - 1].clock) + CombinedDwell(p, route[j], r[j - k - 1].charge)
             + p.travelTime[(route[j], route[j + 1])]
        ensures r[j - k].charge == LeavingCharge(p, route[j], r[j - k - 1].charge) - p.netEnergy[(route[j], route[j + 1])]
      {
        assert r[j - k] == tail[j - k - 1];
        if j > k + 1 {
          assert r[j - k - 1] == tail[j - (k + 1) - 1];
        }
      }
    }
  }

  /**
    Raw arrival time and arrival charge at every node of the combined walk:
    entry 0 is the first node's ready time and a full battery; entry k+1
    takes entry k's time raised to node k's ready time, plus node k's dwell
    for entry k's charge, plus the travel time, and entry k's charge left
    at node k (full at a station) minus the arc's net energy.
  */
  function CombinedProfile(p: Params, route: Route): (r: Option<seq<Probe>>)
    ensures r.Some? <==>
      route == [] || (route[0] in p.readyTime && forall j :: 0 <= j < |route| - 1 ==> CombinedEntries(p, route[j], route[j + 1]))
    ensures r.Some? ==> |r.value| == |route|
    ensures r.Some? && route != [] ==> r.value[0] == Probe(p.readyTime[route[0]], p.capacity)
    ensures r.Some? ==> forall k :: 0 <= k < |route| - 1 ==>
      && r.value[k + 1].clock ==
           Settled(p, route[k], r.value[k].clock) + CombinedDwell(p, route[k], r.value[k].charge)
           + p.travelTime[(route[k], route[k + 1])]
      && r.value[k + 1].charge == LeavingCharge(p, route[k], r.value[k].charge) - p.netEnergy[(route[k], route[k + 1])]
  {
    if route == [] then Some([])
    else if route[0] !in p.readyTime then None
    else
      var start := Probe(p.readyTime[route[0]], p.capacity);
      match CombinedArrivalsFrom(p, route, 0, start)
      case None => None
      case Some(rest) =>
        var r := [start] + rest;
        assert forall k :: 1 <= k < |route| ==> r[k] == rest[k - 1];
        CombinedArrivalsRecurrence(p, route, 0, start);
        Some(r)
  }

  // ---------------------------------------------------------------------
  // The extractors
  // ---------------------------------------------------------------------

  /** Every arc of the route has a net energy entry. */
  predicate NetEnergyDefined(p: Params, route: Route)
  {
    forall j :: 0 <= j < |route| - 1 ==> (route[j], route[j + 1]) in p.netEnergy
  }

  /** Arrival charges at nodes k+1, k+2, ..., given arrival charge e at node k. */
  function ArrivalsFrom(p: Params, route: Route, k: nat, e: real): (r: Option<seq<real>>)
    requires k < |route|
    ensures r.Some? <==> forall j :: k <= j < |route| - 1 ==> (route[j], route[j + 1]) in p.netEnergy
    ensures r.Some? ==> |r.value| == |route| - 1 - k
    ensures r.Some? && k < |route| - 1 ==>
      r.value[0] == LeavingCharge(p, route[k], e) - p.netEnergy[(route[k], route[k + 1])]
    ensures r.Some? ==> forall j :: k < j < |route| - 1 ==>
      r.value[j - k] == LeavingCharge(p, route[j], r.value[j - k - 1]) - p.netEnergy[(route[j], route[j + 1])]
    decreases |route| - k
  {
    if k == |route| - 1 then Some([])
    else
      match ArrivalCharge(p, route[k], route[k + 1], e)
      case None => None
      case Some(next) =>
        match ArrivalsFrom(p, route, k + 1, next)
        case None => None
        case Some(rest) => Some([next] + rest)
  }

  /**
    Charge on arrival at every node: entry 0 is the full battery, and entry
    k+1 is the charge leaving node k (full at a station) minus the arc's net
    consumption. Fails only when an arc has no net energy entry.
  */
  function EnergyExtractor(p: Params, route: Route): (r: Result<seq<real>, Fault>)
    ensures r.Success? <==> NetEnergyDefined(p, route)
    ensures r.Failure? ==> r.error == RouteNotFeasible
    ensures r.Success? ==> |r.value| == |route|
    ensures r.Success? && |route| > 0 ==> r.value[0] == p.capacity
    ensures r.Success? ==> forall k :: 0 <= k < |route| - 1 ==>
      r.value[k + 1] == LeavingCharge(p, route[k], r.value[k]) - p.netEnergy[(route[k], route[k + 1])]
  {
    if |route| < 2 then Success(if route == [] then [] else [p.capacity])
    else
      match ArrivalsFrom(p, route, 0, p.capacity)
      case None => Failure(RouteNotFeasible)
      case Some(rest) =>
        var r := [p.capacity] + rest;
        assert forall k :: 1 <= k < |route| - 1 ==> r[k + 1] == rest[k];
        Success(r)
  }

  /** Departure charges at nodes k, k+1, ..., given arrival charge e at node k. */
  function DeparturesFrom(p: Params, route: Route, k: nat, e: real): (r: Option<seq<real>>)
    requires k < |route|
    ensures r.Some? <==> forall j :: k <= j < |route| - 1 ==> (route[j], route[j + 1]) in p.netEnergy
    ensures r.Some? ==> |r.value| == |route| - k
    decreases |route| - k
  {
    var leaving := LeavingCharge(p, route[k], e);
    if k == |route| - 1 then Some([leaving])
    else if (route[k], route[k + 1]) !in p.netEnergy then None
    else
      match DeparturesFrom(p, route, k + 1, leaving - p.netEnergy[(route[k], route[k + 1])])
      case None => None
      case Some(rest) => Some([leaving] + rest)
  }

  /** Charge when leaving every node: full at a station, the arrival charge elsewhere. */
  function DepartureExtractor(p: Params, route: Route): (r: Result<seq<real>, Fault>)
    ensures r.Success? <==> NetEnergyDefined(p, route)
    ensures r.Failure? ==> r.error == RouteNotFeasible
    ensures r.Success? ==> |r.value| == |route|
  {
    if |route| < 2 then Success(if route == [] then [] else [p.capacity])
    else
      match DeparturesFrom(p, route, 0, p.capacity)
      case None => Failure(RouteNotFeasible)
      case Some(d) => Success(d)
  }

  /** Every table entry the arrival-time extractor reads for the arc (u, v). */
  predicate ClockEntries(p: Params, u: NodeId, v: NodeId)
  {
    && (u in p.stations ==> p.rechargeRate != 0.0)
    && (u !in p.stations ==> u in p.serviceTime)
    && (u, v) in p.travelTime
    && v in p.readyTime
  }

  /**
    Time spent at u by the extractor's estimate: half a battery's worth of
    recharge at a station, the service time elsewhere. Only read where the
    extractor's entries exist (see ClockEntries).
  */
  function EstimatedDwell(p: Params, u: NodeId): real
  {
    if u in p.stations then
      (if p.rechargeRate == 0.0 then 0.0 else p.capacity * 0.5 / p.rechargeRate)
    else if u in p.serviceTime then p.serviceTime[u]
    else 0.0
  }

  /** Arrival times at nodes k+1, k+2, ..., given the clock at node k. */
  function ClocksFrom(p: Params, route: Route, k: nat, clock: real): (r: Result<seq<real>, Fault>)
    requires k < |route|
    ensures r.Success? <==> forall j :: k <= j < |route| - 1 ==> ClockEntries(p, route[j], route[j + 1])
    ensures r.Failure? && r.error == DivisionByZero ==> p.rechargeRate == 0.0
    ensures r.Failure? ==> r.error != MissingKey
    ensures r.Success? ==> |r.value| == |route| - 1 - k
    ensures r.Success? && k < |route| - 1 ==>
      r.value[0] == Max(clock + EstimatedDwell(p, route[k]) + p.travelTime[(route[k], route[k + 1])], p.readyTime[route[k + 1]])
    decreases |route| - k
  {
    if k == |route| - 1 then Success([])
    else
      var u := route[k];
      var v := route[k + 1];
      if u in p.stations && p.rechargeRate == 0.0 then Failure(DivisionByZero)
      else if u !in p.stations && u !in p.serviceTime then Failure(RouteNotFeasible)
      else if (u, v) !in p.travelTime || v !in p.readyTime then Failure(RouteNotFeasible)
      else
        var next := Max(clock + EstimatedDwell(p, u) + p.travelTime[(u, v)], p.readyTime[v]);
        var tail := ClocksFrom(p, route, k + 1, next);
        if tail.Failure? then Failure(tail.error)
        else
          Success([next] + tail.value)
  }

  /** Each arrival time after the first follows from the one before it. */
  lemma {:induction false} ClocksRecurrence(p: Params, route: Route, k: nat, clock: real)
    requires k < |route| && ClocksFrom(p, route, k, clock).Success?
    ensures forall j :: k < j < |route| - 1 ==>
      ClocksFrom(p, route, k, clock).value[j - k] ==
        Max(ClocksFrom(p, route, k, clock).value[j - k - 1] + EstimatedDwell(p, route[j]) + p.travelTime[(route[j], route[j + 1])],
            p.readyTime[route[j + 1]])
    decreases |route| - k
  {
    if k < |route| - 1 {
      var u, v := route[k], route[k + 1];
      var next := Max(clock + EstimatedDwell(p, u) + p.travelTime[(u, v)], p.readyTime[v]);
      var tail := ClocksFrom(p, route, k + 1, next);
      var r := ClocksFrom(p, route, k, clock).value;
      assert r == [next] + tail.value;
      ClocksRecurrence(p, route, k + 1, next);
      forall j | k < j < |route| - 1
        ensures r[j - k] == Max(r[j - k - 1] + EstimatedDwell(p, route[j]) + p.travelTime[(route[j], route[j + 1])], p.readyTime[route[j + 1]])
      {
        assert r[j - k] == tail.value[j - k - 1];
        if j > k + 1 {
          assert r[j - k - 1] == tail.value[j - (k + 1) - 1];
        }
      }
    }
  }

  /**
    Arrival time at every node, after waiting for its ready time. Stations
    take a fixed estimate of half a battery's recharge, and no due date is
    checked.
  */
  function TimeExtractor(p: Params, route: Route): (r: Result<seq<real>, Fault>)
    ensures r.Success? <==>
      (route == [] || route[0] in p.readyTime) &&
      forall j :: 0 <= j < |route| - 1 ==> ClockEntries(p, route[j], route[j + 1])
    ensures r.Failure? ==> (r.error == MissingKey <==> |route| == 1)
    ensures r.Failure? && r.error == DivisionByZero ==> p.rechargeRate == 0.0
    ensures r.Success? ==> |r.value| == |route|
    ensures r.Success? && route != [] ==> r.value[0] == p.readyTime[route[0]]
    ensures r.Success? ==> forall k :: 0 <= k < |route| - 1 ==>
      r.value[k + 1] == Max(r.value[k] + EstimatedDwell(p, route[k]) + p.travelTime[(route[k], route[k + 1])],
                            p.readyTime[route[k + 1]])
  {
    if route == [] then Success([])
    else if route[0] !in p.readyTime then Failure(if |route| < 2 then MissingKey else RouteNotFeasible)
    else if |route| < 2 then Success([p.readyTime[route[0]]])
    else
      var start := p.readyTime[route[0]];
      var tail := ClocksFrom(p, route, 0, start);
      if tail.Failure? then Failure(tail.error)
      else
        var rest := tail.value;
        var r := [start] + rest;
        ClocksRecurrence(p, route, 0, start);
        assert forall k :: 1 <= k < |route| ==> r[k] == rest[k - 1];
        Success(r)
  }
}

=== FILE: evaluator_facts.dfy ===
/**
  Facts about the evaluator: how the three checks relate to each other, how
  the extractors relate to the checks and to each other, and which inputs
  the checks never read.
*/
module EvaluatorFacts {
  import opened Outcomes
  import opened Instance
  import opened Evaluator

  // ---------------------------------------------------------------------
  // The combined check is at least as strict as each single check
  // ---------------------------------------------------------------------

  /**
    One arc: with a non-negative recharge rate, the time-only step started
    no later than the combined step succeeds and arrives no later.
  */
  lemma CombinedStepBoundsTimeStep(p: Params, u: NodeId, v: NodeId, s: Probe, t: real)
    requires p.rechargeRate >= 0.0 && t <= s.clock
    requires CombinedStep(p, u, v, s).Some?
    ensures TimeStep(p, u, v, t).Some?
    ensures TimeStep(p, u, v, t).value <= CombinedStep(p, u, v, s).value.clock
  {
    var missing := p.capacity - s.charge;
    if u in p.stations && missing > 0.0 {
      assert p.rechargeRate > 0.0;
      assert missing / p.rechargeRate > 0.0;
    }
  }

  lemma {:induction false} CombinedClockBoundsTimeClock(p: Params, route: Route, k: nat, s: Probe, t: real)
    requires k < |route| && p.rechargeRate >= 0.0 && t <= s.clock
    requires TimeEnergyFrom(p, route, k, s)
    ensures TimeOnlyFrom(p, route, k, t)
    decreases |route| - k
  {
    if k < |route| - 1 {
      var next := CombinedStep(p, route[k], route[k + 1], s).value;
      CombinedStepBoundsTimeStep(p, route[k], route[k + 1], s, t);
      CombinedClockBoundsTimeClock(p, route, k + 1, next, TimeStep(p, route[k], route[k + 1], t).value);
    }
  }

  /**
    A route that passes the combined check passes the time-only check: the
    recharge time the combined check adds at stations can only make the
    vehicle later.
  */
  lemma CombinedImpliesTimeOnly(p: Params, route: Route)
    requires p.rechargeRate >= 0.0
    ensures TimeEnergy(p, route) ==> TimeOnly(p, route)
  {
    if TimeEnergy(p, route) && |route| >= 2 {
      var start := Probe(p.readyTime[route[0]], p.capacity);
      CombinedClockBoundsTimeClock(p, route, 0, start, start.clock);
    }
  }

  lemma {:induction false} CombinedChargeIsEnergyCharge(p: Params, route: Route, k: nat, s: Probe)
    requires k < |route|
    requires TimeEnergyFrom(p, route, k, s)
    ensures EnergyOnlyFrom(p, route, k, s.charge)
    decreases |route| - k
  {
    if k < |route| - 1 {
      var next := CombinedStep(p, route[k], route[k + 1], s).value;
      assert EnergyStep(p, route[k], route[k + 1], s.charge) == Some(next.charge);
      CombinedChargeIsEnergyCharge(p, route, k + 1, next);
    }
  }

  /** A route that passes the combined check passes the energy-only check. */
  lemma CombinedImpliesEnergyOnly(p: Params, route: Route)
    ensures TimeEnergy(p, route) ==> EnergyOnly(p, route)
  {
    if TimeEnergy(p, route) && |route| >= 2 {
      CombinedChargeIsEnergyCharge(p, route, 0, Probe(p.readyTime[route[0]], p.capacity));
    }
  }

  /** The route D0 -> S -> c used by RechargeTimeMatters: S is a station. */
  const WitnessRoute: Route := ["D0", "S", "c"]

  /**
    Instance for RechargeTimeMatters: every arc takes one time unit and
    half the battery, the battery recharges one unit per time unit, and c
    is due at time 3.
  */
  const WitnessParams: Params := Params(
    stations := {"S"},
    readyTime := map["D0" := 0.0, "S" := 0.0, "c" := 0.0],
    dueDate := map["D0" := 100.0, "S" := 100.0, "c" := 3.0],
    serviceTime := map["D0" := 0.0, "c" := 0.0],
    travelTime := map[("D0", "S") := 1.0, ("S", "c") := 1.0],
    netEnergy := map[("D0", "S") := 5.0, ("S", "c") := 5.0],
    capacity := 10.0,
    rechargeRate := 1.0)

  /**
    The converse fails: a route can pass the time-only and the energy-only
    checks and still fail the combined one, because only the combined check
    spends time recharging at a station (here 5 units, which makes c late).
  */
  lemma RechargeTimeMatters()
    ensures TimeOnly(WitnessParams, WitnessRoute)
    ensures EnergyOnly(WitnessParams, WitnessRoute)
    ensures !TimeEnergy(WitnessParams, WitnessRoute)
  {
    var p, route := WitnessParams, WitnessRoute;
    assert TimeStep(p, "D0", "S", 0.0) == Some(1.0);
    assert TimeStep(p, "S", "c", 1.0) == Some(2.0);
    assert TimeOnlyFrom(p, route, 2, 2.0);
    assert EnergyStep(p, "D0", "S", 10.0) == Some(5.0);
    assert EnergyStep(p, "S", "c", 5.0) == Some(5.0);
    assert EnergyOnlyFrom(p, route, 2, 5.0);
    assert CombinedStep(p, "D0", "S", Probe(0.0, 10.0)) == Some(Probe(1.0, 5.0));
    assert CombinedStep(p, "S", "c", Probe(1.0, 5.0)) == None;
  }

  // ---------------------------------------------------------------------
  // The two-node boundary
  // ---------------------------------------------------------------------

  /**
    For a single arc out of a customer or depot, with every entry present,
    the time-only check accepts exactly when the vehicle leaving at u's
    ready time after service arrives by v's due date (arrival exactly at
    the due date is on time), and the combined check additionally needs
    the arc's net energy to fit in a full battery.
  */
  lemma SingleArcWindow(p: Params, u: NodeId, v: NodeId)
    requires u !in p.stations && u in p.serviceTime && u in p.readyTime
    requires (u, v) in p.travelTime && (u, v) in p.netEnergy
    requires v in p.dueDate && v in p.readyTime
    ensures TimeOnly(p, [u, v]) <==>
      p.readyTime[u] + p.serviceTime[u] + p.travelTime[(u, v)] <= p.dueDate[v]
    ensures TimeEnergy(p, [u, v]) <==>
      p.readyTime[u] + p.serviceTime[u] + p.travelTime[(u, v)] <= p.dueDate[v] &&
      p.capacity - p.netEnergy[(u, v)] >= 0.0
  {
    var route := [u, v];
    assert route[0] == u && route[1] == v;
    var arrival := p.readyTime[u] + p.serviceTime[u] + p.travelTime[(u, v)];
    if arrival <= p.dueDate[v] {
      assert TimeOnlyFrom(p, route, 1, Max(arrival, p.readyTime[v]));
      if p.capacity - p.netEnergy[(u, v)] >= 0.0 {
        assert TimeEnergyFrom(p, route, 1, Probe(Max(arrival, p.readyTime[v]), p.capacity - p.netEnergy[(u, v)]));
      }
    }
  }

  // ---------------------------------------------------------------------
  // The time windows on every route
  // ---------------------------------------------------------------------

  /** The vehicle arrives at v at time t no later than v's due date. */
  predicate OnTime(p: Params, v: NodeId, t: real)
  {
    v in p.dueDate && t <= p.dueDate[v]
  }

  lemma {:induction false} TimeOnlyFromProfile(p: Params, route: Route, k: nat, clock: real)
    requires k < |route|
    ensures TimeOnlyFrom(p, route, k, clock) <==>
      RawArrivalsFrom(p, route, k, clock).Some? &&
      forall j :: k < j < |route| ==> OnTime(p, route[j], RawArrivalsFrom(p, route, k, clock).value[j - k - 1])
    decreases |route| - k
  {
    if k < |route| - 1 {
      var u, v := route[k], route[k + 1];
      if TimeEntries(p, u, v) {
        var arrival := clock + TimeDwell(p, u) + p.travelTime[(u, v)];
        var next := Max(arrival, p.readyTime[v]);
        TimeOnlyFromProfile(p, route, k + 1, next);
        var tail := RawArrivalsFrom(p, route, k + 1, next);
        if tail.Some? {
          var all := RawArrivalsFrom(p, route, k, clock).value;
          assert all == [arrival] + tail.value;
          assert forall i :: 1 <= i < |all| ==> all[i] == tail.value[i - 1];
          if arrival <= p.dueDate[v] {
            assert TimeStep(p, u, v, clock) == Some(next);
            assert OnTime(p, route[k + 1], all[0]);
          } else {
            assert !OnTime(p, route[k + 1], all[0]);
          }
        }
      }
    }
  }

  /**
    The time-only check accepts a route of two or more nodes exactly when
    the walk can read every entry it needs and every raw arrival is at or
    before its node's due date: arriving exactly at the due date is on
    time, arriving later is rejected, and an early arrival waits for the
    ready time before the next arc (see TimeProfile).
  */
  lemma TimeOnlyMatchesProfile(p: Params, route: Route)
    ensures TimeOnly(p, route) <==>
      |route| < 2 ||
      (TimeProfile(p, route).Some? &&
       forall k :: 0 < k < |route| ==> OnTime(p, route[k], TimeProfile(p, route).value[k]))
  {
    if |route| >= 2 && route[0] in p.readyTime {
      var start := p.readyTime[route[0]];
      TimeOnlyFromProfile(p, route, 0, start);
      var tail := RawArrivalsFrom(p, route, 0, start);
      if tail.Some? {
        var all := TimeProfile(p, route).value;
        assert all == [start] + tail.value;
        assert forall k :: 0 < k < |route| ==> all[k] == tail.value[k - 1];
      }
    }
  }

  /** The vehicle reaches v on time at raw arrival a.clock, with charge a.charge not below zero. */
  predicate OnTimeCharged(p: Params, v: NodeId, a: Probe)
  {
    OnTime(p, v, a.clock) && a.charge >= 0.0
  }

  /** One arc of the combined check, with every entry present and a non-zero rate, in profile terms. */
  lemma CombinedStepByProfile(p: Params, u: NodeId, v: NodeId, s: Probe)
    requires CombinedEntries(p, u, v) && p.rechargeRate != 0.0
    ensures
      var arrival := s.clock + CombinedDwell(p, u, s.charge) + p.travelTime[(u, v)];
      var left := LeavingCharge(p, u, s.charge) - p.netEnergy[(u, v)];
      CombinedStep(p, u, v, s) ==
        if OnTimeCharged(p, v, Probe(arrival, left)) then Some(Probe(Max(arrival, p.readyTime[v]), left)) else None
  {
  }

  lemma {:induction false} TimeEnergyFromProfile(p: Params, route: Route, k: nat, s: Probe)
    requires k < |route|
    requires p.rechargeRate != 0.0
    ensures TimeEnergyFrom(p, route, k, s) <==>
      CombinedArrivalsFrom(p, route, k, s).Some? &&
      forall j :: k < j < |route| ==> OnTimeCharged(p, route[j], CombinedArrivalsFrom(p, route, k, s).value[j - k - 1])
    decreases |route| - k
  {
    if k < |route| - 1 {
      var u, v := route[k], route[k + 1];
      if CombinedEntries(p, u, v) {
        var arrival := s.clock + CombinedDwell(p, u, s.charge) + p.travelTime[(u, v)];
        var left := LeavingCharge(p, u, s.charge) - p.netEnergy[(u, v)];
        var next := Probe(Max(arrival, p.readyTime[v]), left);
        CombinedStepByProfile(p, u, v, s);
        TimeEnergyFromProfile(p, route, k + 1, next);
        var tail := CombinedArrivalsFrom(p, route, k + 1, next);
        if tail.Some? {
          var all := CombinedArrivalsFrom(p, route, k, s).value;
          assert all == [Probe(arrival, left)] + tail.value;
          assert forall i :: 1 <= i < |all| ==> all[i] == tail.value[i - 1];
          if OnTimeCharged(p, v, Probe(arrival, left)) {
            assert TimeEnergyFrom(p, route, k, s) == TimeEnergyFrom(p, route, k + 1, next);
          } else {
            assert !TimeEnergyFrom(p, route, k, s);
          }
        }
      }
    }
  }

  /**
    With a non-zero recharge rate, the combined check accepts a route of two
    or more nodes exactly when the walk can read every entry it needs and
    every node is reached no later than its due date with a charge not
    below zero. Times and charges are those of CombinedProfile. A recharge
    at a station takes the charge missing on arrival there, divided by the
    rate, and the vehicle leaves the station full.
  */
  lemma TimeEnergyMatchesProfile(p: Params, route: Route)
    requires p.rechargeRate != 0.0
    ensures TimeEnergy(p, route) <==>
      |route| < 2 ||
      (CombinedProfile(p, route).Some? &&
       forall k :: 0 < k < |route| ==> OnTimeCharged(p, route[k], CombinedProfile(p, route).value[k]))
  {
    if |route| >= 2 && route[0] in p.readyTime {
      var start := Probe(p.readyTime[route[0]], p.capacity);
      TimeEnergyFromProfile(p, route, 0, start);
      var tail := CombinedArrivalsFrom(p, route, 0, start);
      if tail.Some? {
        var all := CombinedProfile(p, route).value;
        assert all == [start] + tail.value;
        assert forall k :: 0 < k < |route| ==> all[k] == tail.value[k - 1];
      }
    }
  }

  lemma {:induction false} ZeroRateFrom(p: Params, route: Route, k: nat, s: Probe)
    requires k < |route| && p.rechargeRate == 0.0
    requires TimeEnergyFrom(p, route, k, s)
    ensures ArrivalsFrom(p, route, k, s.charge).Some?
    ensures k < |route| - 1 && route[k] in p.stations ==> s.charge >= p.capacity
    ensures forall j :: k < j < |route| - 1 && route[j] in p.stations ==>
      ArrivalsFrom(p, route, k, s.charge).value[j - k - 1] >= p.capacity
    decreases |route| - k
  {
    if k < |route| - 1 {
      var next := CombinedStep(p, route[k], route[k + 1], s).value;
      assert ArrivalCharge(p, route[k], route[k + 1], s.charge) == Some(next.charge);
      ZeroRateFrom(p, route, k + 1, next);
      var tail := ArrivalsFrom(p, route, k + 1, next.charge).value;
      var all := ArrivalsFrom(p, route, k, s.charge).value;
      assert all == [next.charge] + tail;
      assert forall i :: 1 <= i < |all| ==> all[i] == tail[i - 1];
    }
  }

  /**
    With a zero recharge rate, the combined check answers false for a route
    that leaves a station with less than a full battery: the recharge time
    would be a division by zero.
  */
  lemma ZeroRateStationFails(p: Params, route: Route)
    requires p.rechargeRate == 0.0
    ensures EnergyExtractor(p, route).Success? &&
      (exists k :: 0 <= k < |route| - 1 && route[k] in p.stations && EnergyExtractor(p, route).value[k] < p.capacity)
      ==> !TimeEnergy(p, route)
  {
    if TimeEnergy(p, route) && |route| >= 2 {
      var start := Probe(p.readyTime[route[0]], p.capacity);
      ZeroRateFrom(p, route, 0, start);
      var all := EnergyExtractor(p, route).value;
      assert all == [p.capacity] + ArrivalsFrom(p, route, 0, p.capacity).value;
      forall k | 0 <= k < |route| - 1 && route[k] in p.stations
        ensures all[k] >= p.capacity
      {
        if k > 0 {
          assert all[k] == ArrivalsFrom(p, route, 0, p.capacity).value[k - 1];
        }
      }
    }
  }

  /** The parameters of EstimateCanBeLate: the first arc costs no energy, so S is reached with a full battery. */
  const LateParams: Params := WitnessParams.(netEnergy := map[("D0", "S") := 0.0, ("S", "c") := 5.0])

  /**
    The arrival-time extractor can report a late arrival on a route the
    combined check accepts: the extractor always charges half a battery's
    recharge at a station (5 units here), while the check charges only the
    missing charge (none here). c is reached at 2 by the check and at 7 by
    the extractor, and c is due at 3.
  */
  lemma EstimateCanBeLate()
    ensures TimeEnergy(LateParams, WitnessRoute)
    ensures TimeExtractor(LateParams, WitnessRoute).Success?
    ensures TimeExtractor(LateParams, WitnessRoute).value[2] == 7.0
    ensures TimeExtractor(LateParams, WitnessRoute).value[2] > LateParams.dueDate[WitnessRoute[2]]
  {
    var p, route := LateParams, WitnessRoute;
    assert CombinedStep(p, "D0", "S", Probe(0.0, 10.0)) == Some(Probe(1.0, 10.0));
    assert CombinedStep(p, "S", "c", Probe(1.0, 10.0)) == Some(Probe(2.0, 5.0));
    assert TimeEnergyFrom(p, route, 2, Probe(2.0, 5.0));
    assert EstimatedDwell(p, "D0") == 0.0 && EstimatedDwell(p, "S") == 5.0;
    assert route[1] == "S" && route[2] == "c";
    assert ClockEntries(p, "D0", "S") && ClockEntries(p, "S", "c");
    assert p.travelTime[("S", "c")] == 1.0 && p.readyTime["c"] == 0.0;
    assert p.travelTime[("D0", "S")] == 1.0 && p.readyTime["S"] == 0.0;
    assert ClocksFrom(p, route, 2, 7.0) == Success([]);
    assert Max(1.0 + EstimatedDwell(p, "S") + p.travelTime[("S", "c")], p.readyTime["c"]) == 7.0;
    assert ClocksFrom(p, route, 1, 1.0).Success?;
    assert ClocksFrom(p, route, 1, 1.0).value == [7.0];
    assert Max(0.0 + EstimatedDwell(p, "D0") + p.travelTime[("D0", "S")], p.readyTime["S"]) == 1.0;
    assert ClocksFrom(p, route, 0, 0.0).Success?;
    assert ClocksFrom(p, route, 0, 0.0).value == [1.0, 7.0];
  }

  // ---------------------------------------------------------------------
  // Cheaper arcs never break feasibility
  // ---------------------------------------------------------------------

  /**
    q differs from p only in its net-energy table, which has the same arcs
    and never charges more on any of them.
  */
  predicate CostsNoMore(q: Params, p: Params)
  {
    && q == p.(netEnergy := q.netEnergy)
    && q.netEnergy.Keys == p.netEnergy.Keys
    && forall a :: a in p.netEnergy ==> q.netEnergy[a] <= p.netEnergy[a]
  }

  lemma {:induction false} EnergyOnlyFromMonotone(p: Params, q: Params, route: Route, k: nat, e: real, f: real)
    requires k < |route| && CostsNoMore(q, p) && e <= f
    requires EnergyOnlyFrom(p, route, k, e)
    ensures EnergyOnlyFrom(q, route, k, f)
    decreases |route| - k
  {
    if k < |route| - 1 {
      var u, v := route[k], route[k + 1];
      var next := EnergyStep(p, u, v, e).value;
      assert EnergyStep(q, u, v, f).Some? && EnergyStep(q, u, v, f).value >= next;
      EnergyOnlyFromMonotone(p, q, route, k + 1, next, EnergyStep(q, u, v, f).value);
    }
  }

  /** Less missing charge never takes longer to recharge. */
  lemma RechargeMonotone(a: real, b: real, g: real)
    requires 0.0 < a <= b && g > 0.0
    ensures a / g <= b / g
  {
    assert b / g - a / g == (b - a) / g;
  }

  /**
    One arc of the combined check: with a table that costs no more, a clock
    no later and a charge no lower, the step still succeeds, arrives no
    later and leaves no less charge.
  */
  lemma CombinedStepMonotone(p: Params, q: Params, u: NodeId, v: NodeId, s: Probe, t: Probe)
    requires CostsNoMore(q, p) && p.rechargeRate >= 0.0
    requires t.clock <= s.clock && t.charge >= s.charge
    requires CombinedStep(p, u, v, s).Some?
    ensures CombinedStep(q, u, v, t).Some?
    ensures CombinedStep(q, u, v, t).value.clock <= CombinedStep(p, u, v, s).value.clock
    ensures CombinedStep(q, u, v, t).value.charge >= CombinedStep(p, u, v, s).value.charge
  {
    var missingP, missingQ := p.capacity - s.charge, q.capacity - t.charge;
    if u in p.stations && missingQ > 0.0 {
      assert p.rechargeRate > 0.0;
      RechargeMonotone(missingQ, missingP, p.rechargeRate);
    }
  }

  lemma {:induction false} CombinedFromMonotone(p: Params, q: Params, route: Route, k: nat, s: Probe, t: Probe)
    requires k < |route| && CostsNoMore(q, p) && p.rechargeRate >= 0.0
    requires t.clock <= s.clock && t.charge >= s.charge
    requires TimeEnergyFrom(p, route, k, s)
    ensures TimeEnergyFrom(q, route, k, t)
    decreases |route| - k
  {
    if k < |route| - 1 {
      var u, v := route[k], route[k + 1];
      CombinedStepMonotone(p, q, u, v, s, t);
      CombinedFromMonotone(p, q, route, k + 1, CombinedStep(p, u, v, s).value, CombinedStep(q, u, v, t).value);
    }
  }

  /**
    A net-energy table that costs no more on any arc keeps every
    energy-feasible route energy-feasible, and, with a non-negative
    recharge rate, every route that passes the combined check passing it.
  */
  lemma CheaperArcsKeepFeasible(p: Params, q: Params, route: Route)
    requires CostsNoMore(q, p)
    ensures EnergyOnly(p, route) ==> EnergyOnly(q, route)
    ensures p.rechargeRate >= 0.0 && TimeEnergy(p, route) ==> TimeEnergy(q, route)
  {
    if |route| >= 2 {
      if EnergyOnly(p, route) {
        EnergyOnlyFromMonotone(p, q, route, 0, p.capacity, q.capacity);
      }
      if p.rechargeRate >= 0.0 && TimeEnergy(p, route) {
        var start := Probe(p.readyTime[route[0]], p.capacity);
        CombinedFromMonotone(p, q, route, 0, start, start);
      }
    }
  }

  /**
    With non-negative distances, a route that is feasible under a coverage
    level stays feasible under any level with at least as much coverage,
    for the energy-only check and, with a non-negative recharge rate, for
    the combined check.
  */
  lemma MoreCoverageKeepsFeasible(p: Params, dist: map<Arc, real>, nodes: seq<NodeId>, lo: string, hi: string, h: real, route: Route)
    requires CoverageFraction(lo) <= CoverageFraction(hi)
    requires forall a :: a in dist ==> dist[a] >= 0.0
    requires p.netEnergy == NetEnergyTable(dist, nodes, lo, h)
    ensures EnergyOnly(p, route) ==> EnergyOnly(p.(netEnergy := NetEnergyTable(dist, nodes, hi, h)), route)
    ensures p.rechargeRate >= 0.0 && TimeEnergy(p, route) ==>
      TimeEnergy(p.(netEnergy := NetEnergyTable(dist, nodes, hi, h)), route)
  {
    HigherCoverageNeverCostsMore(dist, nodes, lo, hi, h);
    CheaperArcsKeepFeasible(p, p.(netEnergy := NetEnergyTable(dist, nodes, hi, h)), route);
  }

  // ---------------------------------------------------------------------
  // Prefixes
  // ---------------------------------------------------------------------

  lemma {:induction false} CombinedPrefixFrom(p: Params, route: Route, n: nat, k: nat, s: Probe)
    requires k < n <= |route|
    requires TimeEnergyFrom(p, route, k, s)
    ensures TimeEnergyFrom(p, route[..n], k, s)
    decreases n - k
  {
    if k < n - 1 {
      var next := CombinedStep(p, route[k], route[k + 1], s).value;
      assert route[..n][k] == route[k] && route[..n][k + 1] == route[k + 1];
      CombinedPrefixFrom(p, route, n, k + 1, next);
    }
  }

  /**
    Every prefix of a route that passes the combined check passes it too:
    the check stops at the first violation, so cutting the route short can
    only remove violations.
  */
  lemma CombinedPrefixClosed(p: Params, route: Route, n: nat)
    requires n <= |route|
    ensures TimeEnergy(p, route) ==> TimeEnergy(p, route[..n])
  {
    if TimeEnergy(p, route) && n >= 2 {
      assert route[..n][0] == route[0];
      CombinedPrefixFrom(p, route, n, 0, Probe(p.readyTime[route[0]], p.capacity));
    }
  }

  // ---------------------------------------------------------------------
  // Inputs the evaluator never reads
  // ---------------------------------------------------------------------

  /** Service times of stations never matter: a station's dwell is recharge time. */
  function WithoutStationService(p: Params): (q: Params)
    ensures q.serviceTime.Keys == p.serviceTime.Keys - p.stations
    ensures forall n :: n in q.serviceTime ==> q.serviceTime[n] == p.serviceTime[n]
    ensures q == p.(serviceTime := q.serviceTime)
  {
    p.(serviceTime := p.serviceTime - p.stations)
  }

  lemma {:induction false} CombinedIgnoresStationServiceFrom(p: Params, route: Route, k: nat, s: Probe)
    requires k < |route|
    ensures TimeEnergyFrom(WithoutStationService(p), route, k, s) == TimeEnergyFrom(p, route, k, s)
    decreases |route| - k
  {
    if k < |route| - 1 {
      var q := WithoutStationService(p);
      var step := CombinedStep(p, route[k], route[k + 1], s);
      assert CombinedStep(q, route[k], route[k + 1], s) == step;
      if step.Some? {
        CombinedIgnoresStationServiceFrom(p, route, k + 1, step.value);
      }
    }
  }

  lemma {:induction false} TimeOnlyIgnoresStationServiceFrom(p: Params, route: Route, k: nat, clock: real)
    requires k < |route|
    ensures TimeOnlyFrom(WithoutStationService(p), route, k, clock) == TimeOnlyFrom(p, route, k, clock)
    decreases |route| - k
  {
    if k < |route| - 1 {
      var q := WithoutStationService(p);
      var step := TimeStep(p, route[k], route[k + 1], clock);
      assert TimeStep(q, route[k], route[k + 1], clock) == step;
      if step.Some? {
        TimeOnlyIgnoresStationServiceFrom(p, route, k + 1, step.value);
      }
    }
  }

  /** Dropping every station's service time changes neither time check. */
  lemma StationServiceNeverRead(p: Params, route: Route)
    ensures TimeEnergy(WithoutStationService(p), route) == TimeEnergy(p, route)
    ensures TimeOnly(WithoutStationService(p), route) == TimeOnly(p, route)
  {
    if |route| >= 2 && route[0] in p.readyTime {
      CombinedIgnoresStationServiceFrom(p, route, 0, Probe(p.readyTime[route[0]], p.capacity));
      TimeOnlyIgnoresStationServiceFrom(p, route, 0, p.readyTime[route[0]]);
    }
  }

  /** Two parameter sets that agree on every table the arrival-time extractor reads. */
  predicate SameClockTables(p: Params, q: Params)
  {
    && p.stations == q.stations && p.serviceTime == q.serviceTime && p.readyTime == q.readyTime
    && p.travelTime == q.travelTime && p.rechargeRate == q.rechargeRate && p.capacity == q.capacity
  }

  lemma {:induction false} ClocksReadOnlyClockTables(p: Params, q: Params, route: Route, k: nat, clock: real)
    requires k < |route| && SameClockTables(p, q)
    ensures ClocksFrom(q, route, k, clock) == ClocksFrom(p, route, k, clock)
    decreases |route| - k
  {
    if k < |route| - 1 {
      var u, v := route[k], route[k + 1];
      if ClockEntries(p, u, v) {
        var next := Max(clock + EstimatedDwell(p, u) + p.travelTime[(u, v)], p.readyTime[v]);
        ClocksReadOnlyClockTables(p, q, route, k + 1, next);
      }
    }
  }

  /**
    The arrival-time extractor never reads a due date: replacing the whole
    due-date table leaves its result, or its fault, unchanged. A late
    arrival is reported, not rejected.
  */
  lemma TimeExtractorIgnoresDueDates(p: Params, due: map<NodeId, real>, route: Route)
    ensures TimeExtractor(p.(dueDate := due), route) == TimeExtractor(p, route)
  {
    if |route| >= 2 && route[0] in p.readyTime {
      ClocksReadOnlyClockTables(p, p.(dueDate := due), route, 0, p.readyTime[route[0]]);
    }
  }

  // ---------------------------------------------------------------------
  // Extractors against checks and against each other
  // ---------------------------------------------------------------------

  /** Every arrival time the extractor reports is at or after the node's ready time. */
  lemma ArrivalsNeverEarly(p: Params, route: Route, k: nat)
    requires TimeExtractor(p, route).Success? && k < |route|
    ensures route[k] in p.readyTime
    ensures TimeExtractor(p, route).value[k] >= p.readyTime[route[k]]
  {
    if k > 0 {
      assert ClockEntries(p, route[k - 1], route[k]);
    }
  }

  lemma {:induction false} EnergyOnlyFromProfile(p: Params, route: Route, k: nat, e: real)
    requires k < |route|
    ensures EnergyOnlyFrom(p, route, k, e) <==>
      ArrivalsFrom(p, route, k, e).Some? &&
      forall j :: 0 <= j < |ArrivalsFrom(p, route, k, e).value| ==> ArrivalsFrom(p, route, k, e).value[j] >= 0.0
    decreases |route| - k
  {
    if k < |route| - 1 {
      var next := ArrivalCharge(p, route[k], route[k + 1], e);
      if next.Some? {
        EnergyOnlyFromProfile(p, route, k + 1, next.value);
        var tail := ArrivalsFrom(p, route, k + 1, next.value);
        if tail.Some? {
          var all := ArrivalsFrom(p, route, k, e).value;
          assert all == [next.value] + tail.value;
          assert forall j :: 1 <= j < |all| ==> all[j] == tail.value[j - 1];
          if next.value < 0.0 {
            assert all[0] < 0.0;
          } else {
            assert EnergyOnlyFrom(p, route, k, e) == EnergyOnlyFrom(p, route, k + 1, next.value);
            if forall j :: 0 <= j < |tail.value| ==> tail.value[j] >= 0.0 {
              forall j | 0 <= j < |all|
                ensures all[j] >= 0.0
              {
                if j > 0 {
                  assert all[j] == tail.value[j - 1];
                }
              }
            } else {
              var j :| 0 <= j < |tail.value| && tail.value[j] < 0.0;
              assert all[j + 1] < 0.0;
            }
          }
        }
      }
    }
  }

  /**
    The energy-only check accepts a route exactly when the arrival-charge
    extractor succeeds on it and no charge after the start is negative.
  */
  lemma EnergyOnlyMatchesProfile(p: Params, route: Route)
    ensures EnergyOnly(p, route) <==>
      EnergyExtractor(p, route).Success? &&
      forall k :: 0 < k < |route| ==> EnergyExtractor(p, route).value[k] >= 0.0
  {
    if |route| >= 2 {
      EnergyOnlyFromProfile(p, route, 0, p.capacity);
      var tail := ArrivalsFrom(p, route, 0, p.capacity);
      if tail.Some? {
        var all := EnergyExtractor(p, route).value;
        assert all == [p.capacity] + tail.value;
        if forall j :: 0 <= j < |tail.value| ==> tail.value[j] >= 0.0 {
          forall k | 0 < k < |route|
            ensures all[k] >= 0.0
          {
            assert all[k] == tail.value[k - 1];
          }
        } else {
          var j :| 0 <= j < |tail.value| && tail.value[j] < 0.0;
          assert all[j + 1] < 0.0;
        }
      }
    }
  }

  lemma {:induction false} DeparturesFollowArrivals(p: Params, route: Route, k: nat, e: real)
    requires k < |route|
    requires forall j :: k <= j < |route| - 1 ==> (route[j], route[j + 1]) in p.netEnergy
    ensures DeparturesFrom(p, route, k, e).Some? && ArrivalsFrom(p, route, k, e).Some?
    ensures DeparturesFrom(p, route, k, e).value[0] == LeavingCharge(p, route[k], e)
    ensures forall j :: k < j < |route| ==>
      DeparturesFrom(p, route, k, e).value[j - k] == LeavingCharge(p, route[j], ArrivalsFrom(p, route, k, e).value[j - k - 1])
    decreases |route| - k
  {
    if k < |route| - 1 {
      var next := LeavingCharge(p, route[k], e) - p.netEnergy[(route[k], route[k + 1])];
      DeparturesFollowArrivals(p, route, k + 1, next);
      var dep := DeparturesFrom(p, route, k + 1, next).value;
      var arr := ArrivalsFrom(p, route, k + 1, next).value;
      var depAll := DeparturesFrom(p, route, k, e).value;
      var arrAll := ArrivalsFrom(p, route, k, e).value;
      assert depAll == [LeavingCharge(p, route[k], e)] + dep;
      assert arrAll == [next] + arr;
      forall j | k < j < |route|
        ensures depAll[j - k] == LeavingCharge(p, route[j], arrAll[j - k - 1])
      {
        assert depAll[j - k] == dep[j - k - 1];
        if j > k + 1 {
          assert arrAll[j - k - 1] == arr[j - (k + 1) - 1];
        }
      }
    }
  }

  /**
    The departure extractor and the arrival extractor agree: every node is
    left with its arrival charge, or a full battery at a station, and the
    next arrival is that departure charge minus the arc's net consumption.
  */
  lemma DepartureIsLeavingCharge(p: Params, route: Route)
    requires NetEnergyDefined(p, route)
    ensures DepartureExtractor(p, route).Success? && EnergyExtractor(p, route).Success?
    ensures forall k :: 0 <= k < |route| ==>
      DepartureExtractor(p, route).value[k] == LeavingCharge(p, route[k], EnergyExtractor(p, route).value[k])
    ensures forall k :: 0 <= k < |route| - 1 ==>
      EnergyExtractor(p, route).value[k + 1] == DepartureExtractor(p, route).value[k] - p.netEnergy[(route[k], route[k + 1])]
  {
    if |route| >= 2 {
      DeparturesFollowArrivals(p, route, 0, p.capacity);
      var arr := EnergyExtractor(p, route).value;
      assert arr == [p.capacity] + ArrivalsFrom(p, route, 0, p.capacity).value;
    }
  }
}

=== FILE: instance.dfy ===
/**
  The instance tables the loader derives once, before the search starts:
  depot naming, travel times, and the wireless-charging net energy per arc.
  The distance table is taken as given (the Euclidean distances are not
  modelled).
*/
module Instance {
  import opened Outcomes

  type NodeId = string

  /** An ordered pair of nodes: (origin, destination). */
  type Arc = (NodeId, NodeId)

  const DepotStart: NodeId := "D0"
  const DepotEnd: NodeId := "D0_end"

  /** A vehicle that serves nobody. */
  const EmptyRoute: seq<NodeId> := [DepotStart, DepotEnd]

  /** One row of the instance file: name, type, location, demand, time window, service time. */
  datatype NodeRow = NodeRow(
    name: NodeId,
    kind: string,
    x: real,
    y: real,
    demand: real,
    readyTime: real,
    dueDate: real,
    serviceTime: real)

  /** The end depot is a copy of the depot row under another name. */
  function EndDepotRow(depot: NodeRow): (r: NodeRow)
    ensures r.name == DepotEnd
    ensures r.kind == depot.kind && r.x == depot.x && r.y == depot.y
    ensures r.demand == depot.demand
    ensures r.readyTime == depot.readyTime && r.dueDate == depot.dueDate
    ensures r.serviceTime == depot.serviceTime
    ensures r.(name := depot.name) == depot
  {
    depot.(name := DepotEnd)
  }

  /**
    Travel time of every arc: its distance divided by the average velocity.
    A zero velocity makes the loader fail as soon as there is an arc to divide.
  */
  function TravelTimes(dist: map<Arc, real>, v: real): (r: Option<map<Arc, real>>)
    ensures r.None? <==> v == 0.0 && |dist| > 0
    ensures r.Some? ==> r.value.Keys == dist.Keys
    ensures r.Some? ==> forall a :: a in r.value ==> r.value[a] * v == dist[a]
  {
    if v == 0.0 && |dist| > 0 then None
    else if v == 0.0 then Some(map[])
    else Some(map a | a in dist :: dist[a] / v)
  }

  /** Wireless charge gained per unit of covered distance. */
  const WirelessChargeRate: real := 0.9

  /** Fraction of every arc covered by in-motion chargers, by coverage level name. */
  function CoverageFraction(level: string): (f: real)
    ensures 0.0 <= f <= 0.6
    ensures level != "light" && level != "moderate" && level != "high" ==> f == 0.0
  {
    if level == "none" then 0.0
    else if level == "light" then 0.2
    else if level == "moderate" then 0.4
    else if level == "high" then 0.6
    else 0.0
  }

  /** The coverage table: one entry per ordered pair of distinct nodes. */
  function CoverageTable(nodes: seq<NodeId>, level: string): (cov: map<Arc, real>)
    ensures forall i, j :: (i, j) in cov <==> i in nodes && j in nodes && i != j
    ensures forall a :: a in cov ==> cov[a] == CoverageFraction(level)
  {
    map i, j | i in nodes && j in nodes && i != j :: (i, j) := CoverageFraction(level)
  }

  /** Coverage of an arc, read with 0 as the default for pairs without an entry. */
  function CoverageOf(cov: map<Arc, real>, a: Arc): real
  {
    if a in cov then cov[a] else 0.0
  }

  /** Charge gained on one arc: the rate times the covered part of the distance. */
  function ArcCharge(distance: real, coverage: real): real
  {
    WirelessChargeRate * (distance * coverage)
  }

  /** Wireless charge per arc. */
  function WirelessCharge(dist: map<Arc, real>, cov: map<Arc, real>): (w: map<Arc, real>)
    ensures w.Keys == dist.Keys
    ensures forall a :: a in w ==> w[a] == ArcCharge(dist[a], CoverageOf(cov, a))
  {
    map a | a in dist :: ArcCharge(dist[a], CoverageOf(cov, a))
  }

  /** Net consumption per arc: consumption rate times distance, minus the charge gained. */
  function NetEnergy(dist: map<Arc, real>, h: real, charge: map<Arc, real>): (net: map<Arc, real>)
    requires dist.Keys <= charge.Keys
    ensures net.Keys == dist.Keys
    ensures forall a :: a in net ==> net[a] == h * dist[a] - charge[a]
  {
    map a | a in dist :: h * dist[a] - charge[a]
  }

  /** The loader's net energy table for a coverage level. */
  function NetEnergyTable(dist: map<Arc, real>, nodes: seq<NodeId>, level: string, h: real): (net: map<Arc, real>)
    ensures net.Keys == dist.Keys
    ensures forall a :: a in net ==>
      net[a] == h * dist[a] - ArcCharge(dist[a], CoverageOf(CoverageTable(nodes, level), a))
  {
    NetEnergy(dist, h, WirelessCharge(dist, CoverageTable(nodes, level)))
  }

  /** An arc between two distinct nodes gains the level's coverage fraction of its distance. */
  lemma DistinctArcNetEnergy(dist: map<Arc, real>, nodes: seq<NodeId>, level: string, h: real, i: NodeId, j: NodeId)
    requires (i, j) in dist && i in nodes && j in nodes && i != j
    ensures NetEnergyTable(dist, nodes, level, h)[(i, j)]
      == h * dist[(i, j)] - ArcCharge(dist[(i, j)], CoverageFraction(level))
  {
  }

  /** A self-pair has no coverage entry, so it gains nothing and pays the full consumption. */
  lemma SelfArcNetEnergy(dist: map<Arc, real>, nodes: seq<NodeId>, level: string, h: real, n: NodeId)
    requires (n, n) in dist
    ensures NetEnergyTable(dist, nodes, level, h)[(n, n)] == h * dist[(n, n)]
  {
    assert CoverageOf(CoverageTable(nodes, level), (n, n)) == 0.0;
  }

  /** More coverage never lowers the charge gained on a non-negative distance. */
  lemma ArcChargeMonotone(distance: real, lo: real, hi: real)
    requires distance >= 0.0 && lo <= hi
    ensures ArcCharge(distance, lo) <= ArcCharge(distance, hi)
  {
    assert distance * (hi - lo) >= 0.0;
  }

  /**
    For non-negative distances, a level with at least as much coverage never
    makes an arc cost more net energy.
  */
  lemma HigherCoverageNeverCostsMore(dist: map<Arc, real>, nodes: seq<NodeId>, lo: string, hi: string, h: real)
    requires CoverageFraction(lo) <= CoverageFraction(hi)
    requires forall a :: a in dist ==> dist[a] >= 0.0
    ensures forall a :: a in dist ==> NetEnergyTable(dist, nodes, hi, h)[a] <= NetEnergyTable(dist, nodes, lo, h)[a]
  {
    forall a | a in dist
      ensures NetEnergyTable(dist, nodes, hi, h)[a] <= NetEnergyTable(dist, nodes, lo, h)[a]
    {
      var covLo := CoverageOf(CoverageTable(nodes, lo), a);
      var covHi := CoverageOf(CoverageTable(nodes, hi), a);
      assert covLo <= covHi;
      ArcChargeMonotone(dist[a], covLo, covHi);
    }
  }
}

=== FILE: operators.dfy ===
/**
  Adaptive operator selection: five pools of operator records
  [weight, reward, uses], the weighted random pick of one operator from a
  pool, the bookkeeping of uses and rewards, and the periodic
  recalibration of weights by exponential smoothing.
*/
module Operators {
  import opened Outcomes

  /** One operator's record: selection weight, reward collected, times used since the last recalibration. */
  datatype OperatorRecord = OperatorRecord(name: string, weight: real, reward: real, uses: nat)

  type Pool = seq<OperatorRecord>

  const CustomerRemovalNames: seq<string> := ["r", "wd", "wt", "s", "sp", "sn", "z", "zp", "zn"]
  const RouteRemovalNames: seq<string> := ["RRR"]
  const CustomerInsertionNames: seq<string> := ["g", "r2", "r3"]
  const StationRemovalNames: seq<string> := ["r", "wd", "wc", "f"]
  const StationInsertionNames: seq<string> := ["gsi", "gsic", "bsi"]

  /** The five pools, each drawn from independently. */
  datatype PoolTag = CustomerRemoval | RouteRemoval | CustomerInsertion | StationRemoval | StationInsertion

  datatype Pools = Pools(
    customerRemoval: Pool,
    routeRemoval: Pool,
    customerInsertion: Pool,
    stationRemoval: Pool,
    stationInsertion: Pool)
  {
    function Get(tag: PoolTag): Pool
    {
      match tag
      case CustomerRemoval => customerRemoval
      case RouteRemoval => routeRemoval
      case CustomerInsertion => customerInsertion
      case StationRemoval => stationRemoval
      case StationInsertion => stationInsertion
    }

    /** The pools with one of them replaced; the other four are untouched. */
    function With(tag: PoolTag, pool: Pool): (r: Pools)
      ensures r.Get(tag) == pool
      ensures forall t :: t != tag ==> r.Get(t) == Get(t)
    {
      match tag
      case CustomerRemoval => this.(customerRemoval := pool)
      case RouteRemoval => this.(routeRemoval := pool)
      case CustomerInsertion => this.(customerInsertion := pool)
      case StationRemoval => this.(stationRemoval := pool)
      case StationInsertion => this.(stationInsertion := pool)
    }
  }

  function NamesOf(tag: PoolTag): seq<string>
  {
    match tag
    case CustomerRemoval => CustomerRemovalNames
    case RouteRemoval => RouteRemovalNames
    case CustomerInsertion => CustomerInsertionNames
    case StationRemoval => StationRemovalNames
    case StationInsertion => StationInsertionNames
  }

  // ---------------------------------------------------------------------
  // Initial records
  // ---------------------------------------------------------------------

  function InitPool(names: seq<string>): (pool: Pool)
    ensures |pool| == |names|
    ensures forall i :: 0 <= i < |pool| ==> pool[i].name == names[i]
    ensures Unused(pool)
    ensures forall i :: 0 <= i < |pool| ==> pool[i].weight == 1.0
  {
    seq(|names|, i requires 0 <= i < |names| => OperatorRecord(names[i], 1.0, 0.0, 0))
  }

  /** Every record of every pool starts with weight 1, no reward and no uses. */
  function InitPools(): (ps: Pools)
    ensures forall t :: |ps.Get(t)| == |NamesOf(t)| && |ps.Get(t)| > 0
    ensures forall t :: Unused(ps.Get(t)) && Healthy(ps.Get(t))
    ensures forall t, i :: 0 <= i < |ps.Get(t)| ==>
      ps.Get(t)[i] == OperatorRecord(NamesOf(t)[i], 1.0, 0.0, 0)
  {
    Pools(
      InitPool(CustomerRemovalNames),
      InitPool(RouteRemovalNames),
      InitPool(CustomerInsertionNames),
      InitPool(StationRemovalNames),
      InitPool(StationInsertionNames))
  }

  // ---------------------------------------------------------------------
  // Pool invariants and totals
  // ---------------------------------------------------------------------

  /** No reward and no use recorded since the last recalibration. */
  predicate Unused(pool: Pool)
  {
    forall i :: 0 <= i < |pool| ==> pool[i].reward == 0.0 && pool[i].uses == 0
  }

  /** A pool the search can keep drawing from: non-empty, positive weights, non-negative rewards. */
  predicate Healthy(pool: Pool)
  {
    && |pool| > 0
    && forall i :: 0 <= i < |pool| ==> pool[i].weight > 0.0 && pool[i].reward >= 0.0
  }

  predicate AllHealthy(ps: Pools)
  {
    forall t :: Healthy(ps.Get(t))
  }

  /** Sum of the weights of the first n records. */
  function PrefixWeight(pool: Pool, n: nat): real
    requires n <= |pool|
  {
    if n == 0 then 0.0 else PrefixWeight(pool, n - 1) + pool[n - 1].weight
  }

  function TotalWeight(pool: Pool): real
  {
    PrefixWeight(pool, |pool|)
  }

  function TotalUses(pool: Pool): nat
  {
    if pool == [] then 0 else pool[0].uses + TotalUses(pool[1..])
  }

  function TotalReward(pool: Pool): real
  {
    if pool == [] then 0.0 else pool[0].reward + TotalReward(pool[1..])
  }

  /** Two pools whose records carry the same weights, position by position. */
  predicate SameWeights(a: Pool, b: Pool)
  {
    |a| == |b| && forall i :: 0 <= i < |a| ==> a[i].weight == b[i].weight
  }

  lemma {:induction false} SameWeightsSamePrefix(a: Pool, b: Pool, n: nat)
    requires SameWeights(a, b) && n <= |a|
    ensures PrefixWeight(a, n) == PrefixWeight(b, n)
  {
    if n > 0 {
      SameWeightsSamePrefix(a, b, n - 1);
    }
  }

  lemma {:induction false} PrefixWeightMonotone(pool: Pool, m: nat, n: nat)
    requires m <= n <= |pool|
    requires forall i :: 0 <= i < |pool| ==> pool[i].weight >= 0.0
    ensures PrefixWeight(pool, m) <= PrefixWeight(pool, n)
    decreases n - m
  {
    if m < n {
      PrefixWeightMonotone(pool, m, n - 1);
    }
  }

  lemma {:induction false} PrefixWeightPositive(pool: Pool, n: nat)
    requires Healthy(pool) && 0 < n <= |pool|
    ensures PrefixWeight(pool, n) > 0.0
  {
    if n > 1 {
      PrefixWeightPositive(pool, n - 1);
    }
  }

  /** Signs of a product of two reals. */
  lemma ProductSigns(a: real, b: real)
    ensures a >= 0.0 && b >= 0.0 ==> a * b >= 0.0
    ensures a > 0.0 && b > 0.0 ==> a * b > 0.0
  {
  }

  // ---------------------------------------------------------------------
  // Weighted pick
  // ---------------------------------------------------------------------

  /**
    Python's weighted choice fails unless the pool has at least one record
    and a positive total weight.
  */
  predicate Drawable(pool: Pool)
  {
    |pool| > 0 && TotalWeight(pool) > 0.0
  }

  lemma HealthyIsDrawable(pool: Pool)
    requires Healthy(pool)
    ensures Drawable(pool)
  {
    PrefixWeightPositive(pool, |pool|);
  }

  lemma SameWeightsKeepDrawable(a: Pool, b: Pool)
    requires SameWeights(a, b)
    ensures Drawable(a) <==> Drawable(b)
  {
    SameWeightsSamePrefix(a, b, |a|);
  }

  /**
    The first position at or after k whose cumulative weight exceeds x, the
    last position if there is none: a linear scan, the reference the
    bisection below is compared with.
  */
  function PickFrom(pool: Pool, x: real, k: nat): (j: nat)
    requires k < |pool|
    ensures k <= j < |pool|
    ensures j < |pool| - 1 ==> PrefixWeight(pool, j + 1) > x
    ensures forall i :: k < i <= j ==> PrefixWeight(pool, i) <= x
    decreases |pool| - k
  {
    if k == |pool| - 1 then k
    else if PrefixWeight(pool, k + 1) > x then k
    else PickFrom(pool, x, k + 1)
  }

  /**
    Python's right bisection over the cumulative weights between lo and hi:
    the cumulative weight of position m is PrefixWeight(pool, m + 1).
  */
  function Bisect(pool: Pool, x: real, lo: nat, hi: nat): (j: nat)
    requires lo <= hi < |pool|
    ensures lo <= j <= hi
    decreases hi - lo
  {
    if lo == hi then lo
    else
      var mid := (lo + hi) / 2;
      if x < PrefixWeight(pool, mid + 1) then Bisect(pool, x, lo, mid)
      else Bisect(pool, x, mid + 1, hi)
  }

  /**
    With non-negative weights the bisection between lo and hi returns a
    position whose cumulative weight exceeds x unless it is hi, and every
    position it passes over has a cumulative weight of at most x.
  */
  lemma {:induction false} BisectFindsFirst(pool: Pool, x: real, lo: nat, hi: nat)
    requires lo <= hi < |pool|
    requires forall i :: 0 <= i < |pool| ==> pool[i].weight >= 0.0
    ensures Bisect(pool, x, lo, hi) < hi ==> PrefixWeight(pool, Bisect(pool, x, lo, hi) + 1) > x
    ensures forall i :: lo < i <= Bisect(pool, x, lo, hi) ==> PrefixWeight(pool, i) <= x
    decreases hi - lo
  {
    if lo < hi {
      var mid := (lo + hi) / 2;
      if x < PrefixWeight(pool, mid + 1) {
        BisectFindsFirst(pool, x, lo, mid);
      } else {
        BisectFindsFirst(pool, x, mid + 1, hi);
        forall i | lo < i <= mid + 1
          ensures PrefixWeight(pool, i) <= x
        {
          PrefixWeightMonotone(pool, i, mid + 1);
        }
      }
    }
  }

  /**
    With non-negative weights the bisection over the whole pool and the
    linear scan pick the same position, for every target.
  */
  lemma BisectIsScan(pool: Pool, x: real)
    requires |pool| > 0
    requires forall i :: 0 <= i < |pool| ==> pool[i].weight >= 0.0
    ensures Bisect(pool, x, 0, |pool| - 1) == PickFrom(pool, x, 0)
  {
    BisectFindsFirst(pool, x, 0, |pool| - 1);
  }

  /** A pool with weights 3, -4 and 6, whose cumulative weights 3, -1, 5 are not sorted. */
  const UnsortedPool: Pool := [
    OperatorRecord("a", 3.0, 0.0, 0),
    OperatorRecord("b", -4.0, 0.0, 0),
    OperatorRecord("c", 6.0, 0.0, 0)]

  /**
    With a negative weight the cumulative weights are not sorted, and the
    bisection no longer finds the first position whose cumulative weight
    exceeds the target: for the target 2 it returns the last position while
    the first one already qualifies.
  */
  lemma NegativeWeightBreaksScan()
    ensures Drawable(UnsortedPool)
    ensures Bisect(UnsortedPool, 2.0, 0, 2) == 2
    ensures PickFrom(UnsortedPool, 2.0, 0) == 0
  {
    assert PrefixWeight(UnsortedPool, 1) == 3.0;
    assert PrefixWeight(UnsortedPool, 2) == -1.0;
    assert PrefixWeight(UnsortedPool, 3) == 5.0;
  }

  /**
    The operator picked for a uniform draw u: the draw is scaled by the
    total weight and located among the cumulative weights by a right
    bisection whose upper bound is the last position. None where the
    weighted choice raises (empty pool, or no positive total weight).
  */
  function Pick(pool: Pool, u: real): (r: Option<nat>)
    ensures r.None? <==> !Drawable(pool)
    ensures r.Some? ==> r.value < |pool|
  {
    if !Drawable(pool) then None
    else Some(Bisect(pool, ScaledDraw(pool, u), 0, |pool| - 1))
  }

  /** The uniform draw stretched over the pool's total weight. */
  function ScaledDraw(pool: Pool, u: real): real
  {
    u * TotalWeight(pool)
  }

  /** A draw in [0, 1) scaled by a positive total lands in [0, total). */
  lemma ScaledDrawInRange(pool: Pool, u: real)
    requires Drawable(pool) && 0.0 <= u < 1.0
    ensures 0.0 <= ScaledDraw(pool, u) < TotalWeight(pool)
  {
    UnitScale(u, TotalWeight(pool));
  }

  lemma UnitScale(u: real, total: real)
    requires 0.0 <= u < 1.0 && total > 0.0
    ensures 0.0 <= u * total < total
  {
    ProductSigns(u, total);
    ProductSigns(1.0 - u, total);
  }

  /** For a target inside [0, total), the picked position's slice of the cumulative weights contains it. */
  lemma PickFromSlice(pool: Pool, x: real)
    requires |pool| > 0 && 0.0 <= x < TotalWeight(pool)
    ensures PrefixWeight(pool, PickFrom(pool, x, 0)) <= x < PrefixWeight(pool, PickFrom(pool, x, 0) + 1)
  {
  }

  /** With non-negative weights the slices of two different positions never overlap. */
  lemma SlicesDisjoint(pool: Pool, x: real, i: nat, j: nat)
    requires i < j < |pool|
    requires forall k :: 0 <= k < |pool| ==> pool[k].weight >= 0.0
    requires PrefixWeight(pool, i) <= x < PrefixWeight(pool, i + 1)
    ensures !(PrefixWeight(pool, j) <= x < PrefixWeight(pool, j + 1))
  {
    PrefixWeightMonotone(pool, i + 1, j);
  }

  /** For a target in [0, total), position j is picked exactly when its slice contains the target. */
  lemma PickFromExactly(pool: Pool, x: real, j: nat)
    requires |pool| > 0 && 0.0 <= x < TotalWeight(pool) && j < |pool|
    requires forall i :: 0 <= i < |pool| ==> pool[i].weight >= 0.0
    ensures PickFrom(pool, x, 0) == j <==> PrefixWeight(pool, j) <= x < PrefixWeight(pool, j + 1)
  {
    PickFromSlice(pool, x);
    var p := PickFrom(pool, x, 0);
    if p < j {
      SlicesDisjoint(pool, x, p, j);
    }
  }

  /**
    With non-negative weights and a draw in [0, 1), operator j is picked
    exactly when the scaled draw falls inside j's slice of the cumulative
    weights, so j is picked with probability weight / total weight.
  */
  lemma PickFollowsWeights(pool: Pool, u: real, j: nat)
    requires Drawable(pool) && 0.0 <= u < 1.0 && j < |pool|
    requires forall i :: 0 <= i < |pool| ==> pool[i].weight >= 0.0
    ensures Pick(pool, u) == Some(j) <==>
      PrefixWeight(pool, j) <= ScaledDraw(pool, u) < PrefixWeight(pool, j + 1)
  {
    ScaledDrawInRange(pool, u);
    BisectIsScan(pool, ScaledDraw(pool, u));
    PickFromExactly(pool, ScaledDraw(pool, u), j);
  }

  // ---------------------------------------------------------------------
  // Uses and rewards
  // ---------------------------------------------------------------------

  /** Record one more use of operator j. */
  function Charge(pool: Pool, j: nat): (r: Pool)
    requires j < |pool|
    ensures |r| == |pool| && SameWeights(r, pool)
    ensures r[j].uses == pool[j].uses + 1 && r[j].reward == pool[j].reward && r[j].name == pool[j].name
    ensures forall i :: 0 <= i < |pool| && i != j ==> r[i] == pool[i]
  {
    pool[j := pool[j].(uses := pool[j].uses + 1)]
  }

  /** Add an amount to operator j's reward. */
  function Credit(pool: Pool, j: nat, amount: real): (r: Pool)
    requires j < |pool|
    ensures |r| == |pool| && SameWeights(r, pool)
    ensures r[j].reward == pool[j].reward + amount && r[j].uses == pool[j].uses && r[j].name == pool[j].name
    ensures forall i :: 0 <= i < |pool| && i != j ==> r[i] == pool[i]
  {
    pool[j := pool[j].(reward := pool[j].reward + amount)]
  }

  lemma {:induction false} ChargeAddsOneUse(pool: Pool, j: nat)
    requires j < |pool|
    ensures TotalUses(Charge(pool, j)) == TotalUses(pool) + 1
  {
    var r := Charge(pool, j);
    if j > 0 {
      assert r[1..] == Charge(pool[1..], j - 1);
      ChargeAddsOneUse(pool[1..], j - 1);
    } else {
      assert r[1..] == pool[1..];
    }
  }

  lemma {:induction false} CreditAddsReward(pool: Pool, j: nat, amount: real)
    requires j < |pool|
    ensures TotalReward(Credit(pool, j, amount)) == TotalReward(pool) + amount
  {
    var r := Credit(pool, j, amount);
    if j > 0 {
      assert r[1..] == Credit(pool[1..], j - 1, amount);
      CreditAddsReward(pool[1..], j - 1, amount);
    } else {
      assert r[1..] == pool[1..];
    }
  }

  lemma {:induction false} CreditKeepsUses(pool: Pool, j: nat, amount: real)
    requires j < |pool|
    ensures TotalUses(Credit(pool, j, amount)) == TotalUses(pool)
  {
    var r := Credit(pool, j, amount);
    if j > 0 {
      assert r[1..] == Credit(pool[1..], j - 1, amount);
      CreditKeepsUses(pool[1..], j - 1, amount);
    } else {
      assert r[1..] == pool[1..];
    }
  }

  lemma {:induction false} ChargeKeepsReward(pool: Pool, j: nat)
    requires j < |pool|
    ensures TotalReward(Charge(pool, j)) == TotalReward(pool)
  {
    var r := Charge(pool, j);
    if j > 0 {
      assert r[1..] == Charge(pool[1..], j - 1);
      ChargeKeepsReward(pool[1..], j - 1);
    } else {
      assert r[1..] == pool[1..];
    }
  }

  lemma ChargeKeepsHealthy(pool: Pool, j: nat)
    requires j < |pool| && Healthy(pool)
    ensures Healthy(Charge(pool, j))
  {
  }

  lemma CreditKeepsHealthy(pool: Pool, j: nat, amount: real)
    requires j < |pool| && Healthy(pool) && amount >= 0.0
    ensures Healthy(Credit(pool, j, amount))
  {
  }

  // ---------------------------------------------------------------------
  // Recalibration
  // ---------------------------------------------------------------------

  /** Average reward per use; only meaningful for a used operator. */
  function MeanReward(rec: OperatorRecord): real
    requires rec.uses != 0
  {
    rec.reward / (rec.uses as real)
  }

  /**
    Exponential smoothing of one record: a used operator's weight moves a
    fraction rho of the way toward its mean reward per use, an unused
    operator keeps its weight, and the reward and use counts start over.
  */
  function Recalibrated(rec: OperatorRecord, rho: real): (r: OperatorRecord)
    ensures r.name == rec.name && r.reward == 0.0 && r.uses == 0
    ensures rec.uses == 0 ==> r.weight == rec.weight
    ensures rec.uses != 0 ==> r.weight == rec.weight * (1.0 - rho) + rho * rec.reward / (rec.uses as real)
  {
    var w := if rec.uses != 0 then rec.weight * (1.0 - rho) + rho * rec.reward / (rec.uses as real) else rec.weight;
    OperatorRecord(rec.name, w, 0.0, 0)
  }

  /** Recalibrate every record of a pool. */
  function Recalibrate(pool: Pool, rho: real): (r: Pool)
    ensures |r| == |pool| && Unused(r)
    ensures forall i :: 0 <= i < |pool| ==> r[i] == Recalibrated(pool[i], rho)
  {
    seq(|pool|, i requires 0 <= i < |pool| => Recalibrated(pool[i], rho))
  }

  /**
    The smoothed weight of a used operator lies between its old weight and
    its mean reward per use, for any rho in [0, 1].
  */
  lemma RecalibratedBetween(rec: OperatorRecord, rho: real)
    requires rec.uses != 0 && 0.0 <= rho <= 1.0
    ensures var w := Recalibrated(rec, rho).weight;
      (rec.weight <= MeanReward(rec) ==> rec.weight <= w <= MeanReward(rec)) &&
      (MeanReward(rec) <= rec.weight ==> MeanReward(rec) <= w <= rec.weight)
  {
    var m := MeanReward(rec);
    var w := Recalibrated(rec, rho).weight;
    assert rho * rec.reward / (rec.uses as real) == rho * m;
    assert rec.weight * (1.0 - rho) == rec.weight - rho * rec.weight;
    assert w == rec.weight + rho * (m - rec.weight);
    ProductSigns(rho, m - rec.weight);
    ProductSigns(1.0 - rho, m - rec.weight);
    ProductSigns(rho, rec.weight - m);
    ProductSigns(1.0 - rho, rec.weight - m);
  }

  /** A pool with nothing recorded since the last recalibration is left as it is. */
  lemma RecalibrateUnusedIsIdentity(pool: Pool, rho: real)
    requires Unused(pool)
    ensures Recalibrate(pool, rho) == pool
  {
  }

  /** Recalibrating twice in a row changes nothing more than recalibrating once. */
  lemma RecalibrateIdempotent(pool: Pool, rho: real)
    ensures Recalibrate(Recalibrate(pool, rho), rho) == Recalibrate(pool, rho)
  {
    RecalibrateUnusedIsIdentity(Recalibrate(pool, rho), rho);
  }

  /** With rho in [0, 1), a recalibrated weight stays positive, so the pool stays drawable. */
  lemma RecalibrateKeepsHealthy(pool: Pool, rho: real)
    requires Healthy(pool) && 0.0 <= rho < 1.0
    ensures Healthy(Recalibrate(pool, rho))
  {
    var r := Recalibrate(pool, rho);
    forall i | 0 <= i < |pool|
      ensures r[i].weight > 0.0
    {
      var rec := pool[i];
      if rec.uses != 0 {
        ProductSigns(rec.weight, 1.0 - rho);
        ProductSigns(rho, rec.reward);
        assert rho * rec.reward / (rec.uses as real) >= 0.0;
      }
    }
  }
}

=== FILE: outcomes.dfy ===
/** Failure-carrying values shared by the other modules. */
module Outcomes {

  /** A value that may be absent: a lookup that missed, or a check that gave up. */
  datatype Option<+T> = None | Some(value: T)

  /** A value or the error that was raised instead of it. */
  datatype Result<+T, +E> = Success(value: T) | Failure(error: E)
}

=== FILE: search.dfy ===
/**
  The adaptive large neighbourhood search loop as a state transition. The
  removal and insertion heuristics, the feasibility test, the distance of
  a solution, the acceptance probability exp(-delta/T) and every random
  draw come in from outside; what is modelled is which operators are
  drawn and charged, which candidate is accepted, how the operators are
  rewarded and recalibrated, how the temperature cools and how empty
  routes are pruned.
*/
module Search {
  import opened Outcomes
  import opened Instance
  import opened Evaluator
  import opened Operators

  /** One route per vehicle. */
  type Solution = seq<Route>

  // ---------------------------------------------------------------------
  // The lexicographic objective
  // ---------------------------------------------------------------------

  /** What the search minimises: first the number of routes, then the total distance. */
  datatype Objective = Objective(routes: nat, distance: real)

  /** a is strictly better than b: fewer routes, or as many routes and strictly less distance. */
  predicate Beats(a: Objective, b: Objective)
  {
    a.routes < b.routes || (a.routes == b.routes && a.distance < b.distance)
  }

  predicate NoWorse(a: Objective, b: Objective)
  {
    a == b || Beats(a, b)
  }

  /** Beats is a strict total order: exactly one of a beats b, b beats a, a equals b. */
  lemma BeatsIsStrictTotalOrder(a: Objective, b: Objective, c: Objective)
    ensures !Beats(a, a)
    ensures Beats(a, b) && Beats(b, c) ==> Beats(a, c)
    ensures a != b ==> (Beats(a, b) <==> !Beats(b, a))
    ensures Beats(a, b) ==> a != b
  {
  }

  lemma NoWorseTransitive(a: Objective, b: Objective, c: Objective)
    requires NoWorse(a, b) && NoWorse(b, c)
    ensures NoWorse(a, c)
  {
  }

  // ---------------------------------------------------------------------
  // Parameters and collaborators
  // ---------------------------------------------------------------------

  /** The output of a customer or route removal: the reduced solution and the customers taken out. */
  datatype Destroyed = Destroyed(routes: Solution, removed: seq<NodeId>)

  /**
    Everything the search calls but does not define. Each heuristic gets
    the index of the operator picked from its pool and a token standing for
    its own random choices.
  */
  datatype Environment = Environment(
    customerRemoval: (nat, nat, Solution) -> Destroyed,
    routeRemoval: (nat, nat, Solution) -> Destroyed,
    customerInsertion: (nat, nat, Destroyed) -> Solution,
    stationRemoval: (nat, nat, Solution) -> Solution,
    stationInsertion: (nat, nat, Route) -> Route,
    feasible: Solution -> bool,
    distance: Solution -> real,
    acceptance: (real, real) -> real)  // (distance increase, temperature) to exp(-increase / temperature)

  function Score(env: Environment, s: Solution): Objective
  {
    Objective(|s|, env.distance(s))
  }

  /** The tuning parameters of the search. */
  datatype Config = Config(
    sigma1: real,               // reward for a new best solution
    sigma2: real,               // reward for a new current solution
    sigma3: real,               // reward for an accepted worse solution
    rho: real,                  // reaction factor of the recalibration
    epsilon: real,              // cooling factor
    mu: real,                   // start-temperature factor
    iterations: nat,            // N
    customerRecalibration: nat, // Nc
    stationRecalibration: nat,  // Ns
    routeRemovalPeriod: nat,    // NRR
    stationPeriod: nat,         // NSR
    routeRounds: nat,           // nRR
    inverseLogHalf: real)       // -1 / ln 0.5

  const Defaults: Config := Config(
    30.0, 20.0, 13.0, 0.45, 0.9994, 0.05,
    25000, 200, 1000, 6000, 10, 1250,
    1.4426950408889634)

  /** Periods must be positive (a zero period is a division by zero), rewards non-negative, 0 <= rho < 1. */
  predicate ValidConfig(cfg: Config)
  {
    && cfg.sigma1 >= 0.0 && cfg.sigma2 >= 0.0 && cfg.sigma3 >= 0.0
    && 0.0 <= cfg.rho < 1.0
    && cfg.customerRecalibration > 0 && cfg.stationRecalibration > 0
    && cfg.routeRemovalPeriod > 0 && cfg.stationPeriod > 0
  }

  lemma DefaultsAreValid()
    ensures ValidConfig(Defaults)
  {
  }

  /** Start temperature: -(mu * initial distance) / ln 0.5. */
  function InitialTemperature(cfg: Config, initialDistance: real): real
  {
    cfg.mu * initialDistance * cfg.inverseLogHalf
  }

  // ---------------------------------------------------------------------
  // Acceptance
  // ---------------------------------------------------------------------

  datatype Outcome = NewBest | NewCurrent | Annealed | Rejected

  /**
    The three-tier acceptance rule. A feasible candidate that beats the
    best solution becomes best; otherwise one with as many routes as the
    current solution and strictly less distance becomes current; otherwise
    one with as many routes and strictly more distance becomes current when
    the draw does not exceed the acceptance probability. Everything else,
    equal distance included, is rejected.
  */
  function Judge(feasible: bool, cand: Objective, current: Objective, best: Objective, draw: real, prob: real): (o: Outcome)
    ensures !feasible ==> o == Rejected
    ensures o == NewBest <==> feasible && Beats(cand, best)
    ensures o == NewCurrent <==>
      feasible && !Beats(cand, best) && cand.routes == current.routes && cand.distance < current.distance
    ensures o == Annealed <==>
      feasible && !Beats(cand, best) && cand.routes == current.routes && cand.distance > current.distance && draw <= prob
  {
    if !feasible then Rejected
    else if Beats(cand, best) then NewBest
    else if cand.routes == current.routes && cand.distance < current.distance then NewCurrent
    else if cand.routes == current.routes && cand.distance > current.distance then
      (if draw <= prob then Annealed else Rejected)
    else Rejected
  }

  /**
    Against the lexicographic order: a new current solution beats the
    current one, an annealed one is beaten by it, and the draw decides
    nothing except for an equally long, strictly longer-distance candidate.
  */
  lemma JudgeAgreesWithOrder(feasible: bool, cand: Objective, current: Objective, best: Objective, draw: real, draw2: real, prob: real)
    ensures Judge(feasible, cand, current, best, draw, prob) == NewCurrent ==> Beats(cand, current)
    ensures Judge(feasible, cand, current, best, draw, prob) == Annealed ==> Beats(current, cand)
    ensures cand == current && !Beats(cand, best) ==> Judge(feasible, cand, current, best, draw, prob) == Rejected
    ensures !(cand.routes == current.routes && cand.distance > current.distance) ==>
      Judge(feasible, cand, current, best, draw, prob) == Judge(feasible, cand, current, best, draw2, prob)
  {
  }

  function Payoff(cfg: Config, o: Outcome): real
  {
    match o
    case NewBest => cfg.sigma1
    case NewCurrent => cfg.sigma2
    case Annealed => cfg.sigma3
    case Rejected => 0.0
  }

  // ---------------------------------------------------------------------
  // One destroy-and-repair round
  // ---------------------------------------------------------------------

  /** Which pools an iteration draws its two operators from. */
  datatype Branch = StationBranch | RouteBranch | CustomerBranch

  function RemovalTag(b: Branch): PoolTag
  {
    match b
    case StationBranch => StationRemoval
    case RouteBranch => RouteRemoval
    case CustomerBranch => CustomerRemoval
  }

  function InsertionTag(b: Branch): PoolTag
  {
    if b == StationBranch then StationInsertion else CustomerInsertion
  }

  /** Station insertion applied to every route of a station-removal result, in order. */
  function RepairEach(env: Environment, op: nat, token: nat, routes: Solution): (r: Solution)
    ensures |r| == |routes|
    ensures forall k :: 0 <= k < |routes| ==> r[k] == env.stationInsertion(op, token, routes[k])
  {
    if routes == [] then []
    else [env.stationInsertion(op, token, routes[0])] + RepairEach(env, op, token, routes[1..])
  }

  /**
    The candidate a round builds from the current solution with removal
    operator ri and insertion operator ii. The station branch repairs route
    by route, so its candidate has exactly as many routes as the station
    removal returned.
  */
  function Candidate(env: Environment, b: Branch, ri: nat, ii: nat, token: nat, current: Solution): (cand: Solution)
    ensures b == StationBranch ==> |cand| == |env.stationRemoval(ri, token, current)|
    ensures b == RouteBranch ==> cand == env.customerInsertion(ii, token, env.routeRemoval(ri, token, current))
    ensures b == CustomerBranch ==> cand == env.customerInsertion(ii, token, env.customerRemoval(ri, token, current))
  {
    match b
    case StationBranch => RepairEach(env, ii, token, env.stationRemoval(ri, token, current))
    case RouteBranch => env.customerInsertion(ii, token, env.routeRemoval(ri, token, current))
    case CustomerBranch => env.customerInsertion(ii, token, env.customerRemoval(ri, token, current))
  }

  /**
    The search state carried from round to round. Solutions are Python
    lists, and the loop rebinds and mutates them, so the state also records
    which names share one list: whether the current and the best solution
    are one list, whether the best solution is still the list the initial
    heuristic returned, and what that initial list holds now.
  */
  datatype State = State(
    current: Solution,
    best: Solution,
    pools: Pools,
    temperature: real,
    shared: bool,          // current and best are one list
    bestIsInitial: bool,   // best is the initial list itself (then so is current when shared)
    initialList: Solution) // what the initial list holds now

  /** The contents agree with the sharing: two names for one list see the same routes. */
  predicate Coherent(s: State)
  {
    && (s.shared ==> s.current == s.best)
    && (s.bestIsInitial ==> s.initialList == s.best)
  }

  /** The random input of one round: two operator draws, the acceptance draw, the heuristics' token. */
  datatype Draw = Draw(removal: real, insertion: real, acceptance: real, token: nat)

  /** What one round did: the new state, the verdict, the candidate and the operators drawn. */
  datatype Step = Step(state: State, outcome: Outcome, candidate: Solution, removal: nat, insertion: nat)

  /** The pools a branch draws from can be drawn from. */
  predicate BranchDrawable(ps: Pools, b: Branch)
  {
    Drawable(ps.Get(RemovalTag(b))) && Drawable(ps.Get(InsertionTag(b)))
  }

  /**
    One round: draw a removal and an insertion operator, charge one use to
    each before anything is known about the candidate, build and judge the
    candidate, and credit both operators with the payoff of the verdict.
  */
  function Round(env: Environment, cfg: Config, b: Branch, s: State, d: Draw): (r: Step)
    requires BranchDrawable(s.pools, b)
    ensures Pick(s.pools.Get(RemovalTag(b)), d.removal) == Some(r.removal)
    ensures Pick(s.pools.Get(InsertionTag(b)), d.insertion) == Some(r.insertion)
    ensures r.candidate == Candidate(env, b, r.removal, r.insertion, d.token, s.current)
    ensures r.outcome == Judge(env.feasible(r.candidate), Score(env, r.candidate), Score(env, s.current),
      Score(env, s.best), d.acceptance, env.acceptance(env.distance(r.candidate) - env.distance(s.current), s.temperature))
    ensures r.outcome == Rejected ==> r.state.current == s.current && r.state.best == s.best
    ensures r.outcome == NewBest ==> r.state.current == r.candidate && r.state.best == r.candidate
    ensures r.outcome == NewCurrent || r.outcome == Annealed ==>
      r.state.current == r.candidate && r.state.best == s.best
    ensures r.state.temperature == s.temperature && r.state.initialList == s.initialList
    ensures r.state.shared <==> r.outcome == NewBest || (r.outcome == Rejected && s.shared)
    ensures r.state.bestIsInitial <==> s.bestIsInitial && r.outcome != NewBest
    ensures r.state.pools.Get(RemovalTag(b)) ==
      Credit(Charge(s.pools.Get(RemovalTag(b)), r.removal), r.removal, Payoff(cfg, r.outcome))
    ensures r.state.pools.Get(InsertionTag(b)) ==
      Credit(Charge(s.pools.Get(InsertionTag(b)), r.insertion), r.insertion, Payoff(cfg, r.outcome))
    ensures forall t :: t != RemovalTag(b) && t != InsertionTag(b) ==> r.state.pools.Get(t) == s.pools.Get(t)
  {
    var rt, it := RemovalTag(b), InsertionTag(b);
    var ri := Pick(s.pools.Get(rt), d.removal).value;
    var ii := Pick(s.pools.Get(it), d.insertion).value;
    var cand := Candidate(env, b, ri, ii, d.token, s.current);
    var prob := env.acceptance(env.distance(cand) - env.distance(s.current), s.temperature);
    var o := Judge(env.feasible(cand), Score(env, cand), Score(env, s.current), Score(env, s.best), d.acceptance, prob);
    var pay := Payoff(cfg, o);
    var pools := s.pools
      .With(rt, Credit(Charge(s.pools.Get(rt), ri), ri, pay))
      .With(it, Credit(Charge(s.pools.Get(it), ii), ii, pay));
    var current := if o == Rejected then s.current else cand;
    var best := if o == NewBest then cand else s.best;
    var shared := if o == NewBest then true else if o == Rejected then s.shared else false;
    Step(State(current, best, pools, s.temperature, shared, s.bestIsInitial && o != NewBest, s.initialList), o, cand, ri, ii)
  }

  /**
    The bookkeeping of a round: each of the two drawn operators gains
    exactly one use and the verdict's payoff, no weight changes, the other
    pools are untouched, an infeasible candidate earns nothing and changes
    neither solution, and the best solution never gets worse.
  */
  lemma RoundBookkeeping(env: Environment, cfg: Config, b: Branch, s: State, d: Draw)
    requires BranchDrawable(s.pools, b)
    ensures var r := Round(env, cfg, b, s, d);
      && TotalUses(r.state.pools.Get(RemovalTag(b))) == TotalUses(s.pools.Get(RemovalTag(b))) + 1
      && TotalUses(r.state.pools.Get(InsertionTag(b))) == TotalUses(s.pools.Get(InsertionTag(b))) + 1
      && TotalReward(r.state.pools.Get(RemovalTag(b))) == TotalReward(s.pools.Get(RemovalTag(b))) + Payoff(cfg, r.outcome)
      && TotalReward(r.state.pools.Get(InsertionTag(b))) == TotalReward(s.pools.Get(InsertionTag(b))) + Payoff(cfg, r.outcome)
      && (forall t :: SameWeights(r.state.pools.Get(t), s.pools.Get(t)))
      && (!env.feasible(r.candidate) ==>
            r.state.current == s.current && r.state.best == s.best && Payoff(cfg, r.outcome) == 0.0)
      && NoWorse(Score(env, r.state.best), Score(env, s.best))
  {
    var r := Round(env, cfg, b, s, d);
    var rt, it := RemovalTag(b), InsertionTag(b);
    var pay := Payoff(cfg, r.outcome);
    ChargeAddsOneUse(s.pools.Get(rt), r.removal);
    CreditKeepsUses(Charge(s.pools.Get(rt), r.removal), r.removal, pay);
    ChargeKeepsReward(s.pools.Get(rt), r.removal);
    CreditAddsReward(Charge(s.pools.Get(rt), r.removal), r.removal, pay);
    ChargeAddsOneUse(s.pools.Get(it), r.insertion);
    CreditKeepsUses(Charge(s.pools.Get(it), r.insertion), r.insertion, pay);
    ChargeKeepsReward(s.pools.Get(it), r.insertion);
    CreditAddsReward(Charge(s.pools.Get(it), r.insertion), r.insertion, pay);
  }

  /** With non-negative rewards, a round keeps every pool healthy. */
  lemma RoundKeepsHealthy(env: Environment, cfg: Config, b: Branch, s: State, d: Draw)
    requires BranchDrawable(s.pools, b)
    ensures ValidConfig(cfg) && AllHealthy(s.pools) ==> AllHealthy(Round(env, cfg, b, s, d).state.pools)
  {
    if ValidConfig(cfg) && AllHealthy(s.pools) {
      var r := Round(env, cfg, b, s, d);
      var rt, it := RemovalTag(b), InsertionTag(b);
      var pay := Payoff(cfg, r.outcome);
      assert pay >= 0.0;
      ChargeKeepsHealthy(s.pools.Get(rt), r.removal);
      CreditKeepsHealthy(Charge(s.pools.Get(rt), r.removal), r.removal, pay);
      ChargeKeepsHealthy(s.pools.Get(it), r.insertion);
      CreditKeepsHealthy(Charge(s.pools.Get(it), r.insertion), r.insertion, pay);
    }
  }

  /** A round keeps the contents in agreement with the sharing, and leaves the initial list alone. */
  lemma RoundKeepsCoherent(env: Environment, cfg: Config, b: Branch, s: State, d: Draw)
    requires BranchDrawable(s.pools, b)
    ensures Round(env, cfg, b, s, d).state.initialList == s.initialList
    ensures Coherent(s) ==> Coherent(Round(env, cfg, b, s, d).state)
  {
  }

  // ---------------------------------------------------------------------
  // Route-removal bursts
  // ---------------------------------------------------------------------

  /** The state a round leaves behind, with the facts about it that later rounds rely on. */
  function RoundState(env: Environment, cfg: Config, b: Branch, s: State, d: Draw): (r: State)
    requires BranchDrawable(s.pools, b)
    ensures r.temperature == s.temperature && r.initialList == s.initialList
    ensures Coherent(s) ==> Coherent(r)
    ensures forall t :: SameWeights(r.pools.Get(t), s.pools.Get(t))
    ensures forall t :: t != RemovalTag(b) && t != InsertionTag(b) ==> r.pools.Get(t) == s.pools.Get(t)
    ensures TotalUses(r.pools.Get(RemovalTag(b))) == TotalUses(s.pools.Get(RemovalTag(b))) + 1
    ensures TotalUses(r.pools.Get(InsertionTag(b))) == TotalUses(s.pools.Get(InsertionTag(b))) + 1
    ensures NoWorse(Score(env, r.best), Score(env, s.best))
    ensures ValidConfig(cfg) && AllHealthy(s.pools) ==> AllHealthy(r.pools)
  {
    RoundBookkeeping(env, cfg, b, s, d);
    RoundKeepsHealthy(env, cfg, b, s, d);
    RoundKeepsCoherent(env, cfg, b, s, d);
    Round(env, cfg, b, s, d).state
  }

  /** n route-removal rounds in a row, round k using draw k. */
  function Burst(env: Environment, cfg: Config, s: State, draws: nat -> Draw, n: nat): (r: State)
    requires BranchDrawable(s.pools, RouteBranch)
    ensures r.temperature == s.temperature && r.initialList == s.initialList
    ensures Coherent(s) ==> Coherent(r)
    ensures forall t :: SameWeights(r.pools.Get(t), s.pools.Get(t))
    ensures forall t :: t != RouteRemoval && t != CustomerInsertion ==> r.pools.Get(t) == s.pools.Get(t)
    ensures TotalUses(r.pools.Get(RouteRemoval)) == TotalUses(s.pools.Get(RouteRemoval)) + n
    ensures TotalUses(r.pools.Get(CustomerInsertion)) == TotalUses(s.pools.Get(CustomerInsertion)) + n
    ensures NoWorse(Score(env, r.best), Score(env, s.best))
    ensures ValidConfig(cfg) && AllHealthy(s.pools) ==> AllHealthy(r.pools)
    decreases n
  {
    if n == 0 then s
    else
      var before := Burst(env, cfg, s, draws, n - 1);
      SameWeightsKeepDrawable(before.pools.Get(RouteRemoval), s.pools.Get(RouteRemoval));
      SameWeightsKeepDrawable(before.pools.Get(CustomerInsertion), s.pools.Get(CustomerInsertion));
      var after := RoundState(env, cfg, RouteBranch, before, draws(n - 1));
      forall t ensures SameWeights(after.pools.Get(t), s.pools.Get(t)) {
        SameWeightsTransitive(after.pools.Get(t), before.pools.Get(t), s.pools.Get(t));
      }
      NoWorseTransitive(Score(env, after.best), Score(env, before.best), Score(env, s.best));
      after
  }

  lemma SameWeightsTransitive(a: Pool, b: Pool, c: Pool)
    requires SameWeights(a, b) && SameWeights(b, c)
    ensures SameWeights(a, c)
  {
  }

  // ---------------------------------------------------------------------
  // Dispatch, recalibration cadence, pruning
  // ---------------------------------------------------------------------

  /** The station branch takes precedence, then the route-removal branch, then the customer branch. */
  function BranchOf(cfg: Config, i: nat): (b: Branch)
    requires cfg.stationPeriod > 0 && cfg.routeRemovalPeriod > 0
    ensures b == StationBranch <==> i % cfg.stationPeriod == 0
    ensures b == RouteBranch <==> i % cfg.stationPeriod != 0 && i % cfg.routeRemovalPeriod == 0
  {
    if i % cfg.stationPeriod == 0 then StationBranch
    else if i % cfg.routeRemovalPeriod == 0 then RouteBranch
    else CustomerBranch
  }

  /**
    When the station period divides the route-removal period, every
    iteration that is due for route removal is a station iteration, so the
    route-removal branch never runs. The default periods (10 and 6000) are
    such a pair.
  */
  lemma RouteBranchShadowed(cfg: Config, i: nat)
    requires cfg.stationPeriod > 0 && cfg.routeRemovalPeriod > 0
    requires cfg.routeRemovalPeriod % cfg.stationPeriod == 0
    ensures BranchOf(cfg, i) != RouteBranch
  {
    if i % cfg.routeRemovalPeriod == 0 {
      var q := i / cfg.routeRemovalPeriod;
      var m := cfg.routeRemovalPeriod / cfg.stationPeriod;
      assert i == q * cfg.routeRemovalPeriod;
      assert cfg.routeRemovalPeriod == m * cfg.stationPeriod;
      assert i == (q * m) * cfg.stationPeriod;
      ModUnique(i, cfg.stationPeriod, q * m, 0);
    }
  }

  lemma MulAtLeast(d: int, n: int)
    requires d >= 1 && n > 0
    ensures d * n >= n
  {
    assert d * n == (d - 1) * n + n;
    assert (d - 1) * n >= 0;
  }

  /** Euclidean remainder is unique: x = q * n + r with 0 <= r < n forces x % n == r. */
  lemma ModUnique(x: int, n: int, q: int, r: int)
    requires n > 0 && 0 <= r < n && x == q * n + r
    ensures x % n == r
  {
    var q0, r0 := x / n, x % n;
    assert x == q0 * n + r0;
    assert (q - q0) * n == r0 - r;
    if q - q0 >= 1 {
      MulAtLeast(q - q0, n);
    } else if q0 - q >= 1 {
      MulAtLeast(q0 - q, n);
    }
  }

  lemma DefaultRouteBranchNeverRuns(i: nat)
    ensures BranchOf(Defaults, i) != RouteBranch
  {
    RouteBranchShadowed(Defaults, i);
  }

  /** The pools the branch of iteration i draws from can be drawn from. */
  predicate IterationDrawable(cfg: Config, i: nat, ps: Pools)
    requires cfg.stationPeriod > 0 && cfg.routeRemovalPeriod > 0
  {
    BranchDrawable(ps, BranchOf(cfg, i))
  }

  /** The destroy-and-repair part of iteration i. */
  function SearchPhase(env: Environment, cfg: Config, i: nat, s: State, draws: nat -> Draw): (r: State)
    requires cfg.stationPeriod > 0 && cfg.routeRemovalPeriod > 0
    requires IterationDrawable(cfg, i, s.pools)
    ensures r.temperature == s.temperature && r.initialList == s.initialList
    ensures Coherent(s) ==> Coherent(r)
    ensures forall t :: SameWeights(r.pools.Get(t), s.pools.Get(t))
    ensures NoWorse(Score(env, r.best), Score(env, s.best))
    ensures forall t :: t != RemovalTag(BranchOf(cfg, i)) && t != InsertionTag(BranchOf(cfg, i)) ==>
      r.pools.Get(t) == s.pools.Get(t)
    ensures var b, n := BranchOf(cfg, i), if BranchOf(cfg, i) == RouteBranch then cfg.routeRounds else 1;
      && TotalUses(r.pools.Get(RemovalTag(b))) == TotalUses(s.pools.Get(RemovalTag(b))) + n
      && TotalUses(r.pools.Get(InsertionTag(b))) == TotalUses(s.pools.Get(InsertionTag(b))) + n
    ensures ValidConfig(cfg) && AllHealthy(s.pools) ==> AllHealthy(r.pools)
  {
    var b := BranchOf(cfg, i);
    if b == RouteBranch then Burst(env, cfg, s, draws, cfg.routeRounds)
    else RoundState(env, cfg, b, s, draws(0))
  }

  /**
    Recalibration cadence: every Nc-th iteration the customer-removal,
    route-removal and customer-insertion pools, every Ns-th iteration the
    two station pools.
  */
  function Maintain(cfg: Config, i: nat, ps: Pools): (r: Pools)
    requires cfg.customerRecalibration > 0 && cfg.stationRecalibration > 0
    ensures forall t :: t in {CustomerRemoval, RouteRemoval, CustomerInsertion} ==>
      r.Get(t) == if i % cfg.customerRecalibration == 0 then Recalibrate(ps.Get(t), cfg.rho) else ps.Get(t)
    ensures forall t :: t in {StationRemoval, StationInsertion} ==>
      r.Get(t) == if i % cfg.stationRecalibration == 0 then Recalibrate(ps.Get(t), cfg.rho) else ps.Get(t)
  {
    var customers :=
      if i % cfg.customerRecalibration == 0 then
        ps.(customerRemoval := Recalibrate(ps.customerRemoval, cfg.rho),
            customerInsertion := Recalibrate(ps.customerInsertion, cfg.rho),
            routeRemoval := Recalibrate(ps.routeRemoval, cfg.rho))
      else ps;
    if i % cfg.stationRecalibration == 0 then
      customers.(stationRemoval := Recalibrate(ps.stationRemoval, cfg.rho),
                 stationInsertion := Recalibrate(ps.stationInsertion, cfg.rho))
    else customers
  }

  lemma MaintainKeepsHealthy(cfg: Config, i: nat, ps: Pools)
    requires ValidConfig(cfg)
    ensures AllHealthy(ps) ==> AllHealthy(Maintain(cfg, i, ps))
  {
    if AllHealthy(ps) {
      forall t ensures Healthy(Maintain(cfg, i, ps).Get(t)) {
        RecalibrateKeepsHealthy(ps.Get(t), cfg.rho);
      }
    }
  }

  /** Position of the first occurrence of a route. */
  function FirstIndex(sol: Solution, route: Route): (k: nat)
    requires route in sol
    ensures k < |sol| && sol[k] == route
    ensures forall j :: 0 <= j < k ==> sol[j] != route
  {
    if sol[0] == route then 0 else 1 + FirstIndex(sol[1..], route)
  }

  /** Remove the first empty route D0 -> D0_end, if there is one. */
  function Prune(sol: Solution): (r: Solution)
    ensures EmptyRoute !in sol ==> r == sol
    ensures EmptyRoute in sol ==> r == sol[..FirstIndex(sol, EmptyRoute)] + sol[FirstIndex(sol, EmptyRoute) + 1..]
  {
    if EmptyRoute in sol then
      var k := FirstIndex(sol, EmptyRoute);
      sol[..k] + sol[k + 1..]
    else sol
  }

  /**
    Pruning removes at most one route, and only an empty one: every other
    route keeps its multiplicity, the empty route loses exactly one copy
    when it has any, and the order of the remaining routes is kept.
  */
  lemma PruneRemovesOneEmptyRoute(sol: Solution)
    ensures EmptyRoute in sol ==> |Prune(sol)| == |sol| - 1
    ensures EmptyRoute !in sol ==> |Prune(sol)| == |sol|
    ensures multiset(Prune(sol)) == multiset(sol) - multiset{EmptyRoute}
  {
    if EmptyRoute in sol {
      var k := FirstIndex(sol, EmptyRoute);
      assert sol == sol[..k] + [sol[k]] + sol[k + 1..];
      assert multiset(sol) == multiset(sol[..k]) + multiset{EmptyRoute} + multiset(sol[k + 1..]);
    } else {
      assert multiset(sol)[EmptyRoute] == 0;
    }
  }

  lemma PruneNeverWorsens(env: Environment, sol: Solution)
    ensures NoWorse(Score(env, Prune(sol)), Score(env, sol))
  {
    PruneRemovesOneEmptyRoute(sol);
  }

  /** a is b with some copies of the empty route removed: every other route keeps its multiplicity. */
  predicate OnlyEmptiesRemoved(a: Solution, b: Solution)
  {
    && multiset(a)[EmptyRoute] <= multiset(b)[EmptyRoute]
    && forall r :: r in a + b && r != EmptyRoute ==> multiset(a)[r] == multiset(b)[r]
  }

  lemma PruneOnlyRemovesEmpties(sol: Solution)
    ensures OnlyEmptiesRemoved(Prune(sol), sol)
    ensures |sol| - 1 <= |Prune(sol)| <= |sol|
  {
    PruneRemovesOneEmptyRoute(sol);
  }

  lemma OnlyEmptiesRemovedTransitive(a: Solution, b: Solution, c: Solution)
    requires OnlyEmptiesRemoved(a, b) && OnlyEmptiesRemoved(b, c)
    ensures OnlyEmptiesRemoved(a, c)
  {
  }

  /**
    The pruning at the end of an iteration, on lists: best_solution loses
    its first empty route, then prev_solution does. When both names refer
    to one list, that list loses up to two empty routes; when best is still
    the list the initial heuristic returned, that list shrinks with it.
  */
  function PruneLists(s: State): (r: State)
    ensures r.pools == s.pools && r.temperature == s.temperature
    ensures r.shared == s.shared && r.bestIsInitial == s.bestIsInitial
    ensures Coherent(s) ==> Coherent(r)
    ensures EmptyRoute !in s.best ==> r.best == s.best
    ensures !s.bestIsInitial ==> r.initialList == s.initialList
  {
    if s.shared then
      var list := Prune(Prune(s.best));
      s.(current := list, best := list, initialList := if s.bestIsInitial then list else s.initialList)
    else
      var best := Prune(s.best);
      s.(current := Prune(s.current), best := best, initialList := if s.bestIsInitial then best else s.initialList)
  }

  /**
    Pruning only takes empty routes out: one from the best solution, two
    when it shares its list with the current solution, and never more from
    the initial list than from the best solution it is.
  */
  lemma PruneListsRemovesEmpties(s: State)
    ensures OnlyEmptiesRemoved(PruneLists(s).best, s.best)
    ensures !s.shared ==> OnlyEmptiesRemoved(PruneLists(s).current, s.current)
    ensures |s.best| - (if s.shared then 2 else 1) <= |PruneLists(s).best| <= |s.best|
    ensures Coherent(s) ==>
      OnlyEmptiesRemoved(PruneLists(s).initialList, s.initialList) && |PruneLists(s).initialList| <= |s.initialList|
  {
    PruneOnlyRemovesEmpties(s.best);
    if s.shared {
      PruneOnlyRemovesEmpties(Prune(s.best));
      OnlyEmptiesRemovedTransitive(Prune(Prune(s.best)), Prune(s.best), s.best);
    } else {
      PruneOnlyRemovesEmpties(s.current);
    }
  }

  /** Pruning never worsens the best solution, even when one list loses two empty routes. */
  lemma PruneListsNeverWorsens(env: Environment, s: State)
    ensures NoWorse(Score(env, PruneLists(s).best), Score(env, s.best))
  {
    PruneNeverWorsens(env, s.best);
    PruneNeverWorsens(env, Prune(s.best));
    NoWorseTransitive(Score(env, Prune(Prune(s.best))), Score(env, Prune(s.best)), Score(env, s.best));
  }

  /** An initial solution with two empty routes and one route serving customer c. */
  const TwoEmptyRoutes: Solution := [EmptyRoute, EmptyRoute, [DepotStart, "c", DepotEnd]]

  /**
    At the start of a run the current, the best and the initial solution
    are one list, so the first pruning takes two empty routes out of the
    initial heuristic's list: the size reported for the initial solution is
    then 1, not 3.
  */
  lemma InitialListShrinks(env: Environment, cfg: Config, t0: real)
    ensures |TwoEmptyRoutes| == 3
    ensures PruneLists(Start(env, cfg, TwoEmptyRoutes, t0)).initialList == [[DepotStart, "c", DepotEnd]]
  {
    var once := TwoEmptyRoutes[1..];
    assert FirstIndex(TwoEmptyRoutes, EmptyRoute) == 0;
    assert Prune(TwoEmptyRoutes) == once;
    assert FirstIndex(once, EmptyRoute) == 0;
    assert Prune(once) == once[1..];
  }

  // ---------------------------------------------------------------------
  // One iteration and the whole run
  // ---------------------------------------------------------------------

  /** Healthy pools can always be drawn from, whatever the branch. */
  lemma HealthyPoolsDrawable(cfg: Config, i: nat, ps: Pools)
    requires ValidConfig(cfg) && AllHealthy(ps)
    ensures IterationDrawable(cfg, i, ps)
  {
    var b := BranchOf(cfg, i);
    HealthyIsDrawable(ps.Get(RemovalTag(b)));
    HealthyIsDrawable(ps.Get(InsertionTag(b)));
  }

  /**
    Iteration i: the destroy-and-repair branch, the recalibrations due at
    i, one cooling step, and the pruning of one empty route from the best
    and from the current solution.
  */
  function Iteration(env: Environment, cfg: Config, i: nat, s: State, draws: nat -> Draw): (r: State)
    requires ValidConfig(cfg) && IterationDrawable(cfg, i, s.pools)
    ensures r.temperature == Cool(s.temperature, cfg.epsilon)
    ensures NoWorse(Score(env, r.best), Score(env, s.best))
    ensures AllHealthy(s.pools) ==> AllHealthy(r.pools)
    ensures Coherent(s) ==> Coherent(r)
    ensures Coherent(s) ==> OnlyEmptiesRemoved(r.initialList, s.initialList) && |r.initialList| <= |s.initialList|
    ensures Coherent(s) && EmptyRoute !in s.initialList ==> r.initialList == s.initialList
  {
    var searched := SearchPhase(env, cfg, i, s, draws);
    MaintainKeepsHealthy(cfg, i, searched.pools);
    var cooled := searched.(pools := Maintain(cfg, i, searched.pools), temperature := Cool(s.temperature, cfg.epsilon));
    PruneListsNeverWorsens(env, cooled);
    PruneListsRemovesEmpties(cooled);
    NoWorseTransitive(Score(env, PruneLists(cooled).best), Score(env, searched.best), Score(env, s.best));
    PruneLists(cooled)
  }

  /** One cooling step. */
  function Cool(t: real, epsilon: real): real
  {
    epsilon * t
  }

  /** The temperature after n cooling steps from t. */
  function Cooled(t: real, epsilon: real, n: nat): real
  {
    if n == 0 then t else Cool(Cooled(t, epsilon, n - 1), epsilon)
  }

  function Power(x: real, n: nat): real
  {
    if n == 0 then 1.0 else Power(x, n - 1) * x
  }

  /** n cooling steps multiply the temperature by epsilon to the power n. */
  lemma {:induction false} CooledIsPower(t: real, epsilon: real, n: nat)
    ensures Cooled(t, epsilon, n) == t * Power(epsilon, n)
  {
    if n > 0 {
      CooledIsPower(t, epsilon, n - 1);
      assert (t * Power(epsilon, n - 1)) * epsilon == t * (Power(epsilon, n - 1) * epsilon);
    }
  }

  /** One cooling step from a positive temperature keeps it positive and lowers it. */
  lemma CoolOnce(c: real, epsilon: real)
    requires c > 0.0 && 0.0 < epsilon < 1.0
    ensures 0.0 < Cool(c, epsilon)
    ensures Cool(c, epsilon) < c
  {
    UnitScale(epsilon, c);
    ProductSigns(epsilon, c);
    assert epsilon * c < c;
    assert Cool(c, epsilon) == epsilon * c;
    assert Cool(c, epsilon) < c;
  }

  /** With 0 < epsilon < 1 and a positive start, the temperature stays positive and strictly falls. */
  lemma {:induction false} CoolingFalls(t: real, epsilon: real, n: nat)
    requires t > 0.0 && 0.0 < epsilon < 1.0
    ensures 0.0 < Cooled(t, epsilon, n + 1) < Cooled(t, epsilon, n)
  {
    if n > 0 {
      CoolingFalls(t, epsilon, n - 1);
    }
    CoolOnce(Cooled(t, epsilon, n), epsilon);
  }

  /** What holds of the search state after n iterations of a run from initial starting at temperature t0. */
  predicate RunInvariant(env: Environment, cfg: Config, initial: Solution, t0: real, n: nat, s: State)
  {
    && AllHealthy(s.pools)
    && NoWorse(Score(env, s.best), Score(env, initial))
    && s.temperature == Cooled(t0, cfg.epsilon, n)
    && Coherent(s)
    && OnlyEmptiesRemoved(s.initialList, initial) && |s.initialList| <= |initial|
    && (EmptyRoute !in initial ==> s.initialList == initial)
  }

  /**
    The state a run starts from: fresh pools, temperature t0, and the
    initial list itself as the current and the best solution.
  */
  function Start(env: Environment, cfg: Config, initial: Solution, t0: real): (s: State)
    ensures s.current == initial && s.best == initial && s.initialList == initial
    ensures s.shared && s.bestIsInitial
    ensures forall t :: Unused(s.pools.Get(t))
    ensures RunInvariant(env, cfg, initial, t0, 0, s)
  {
    State(initial, initial, InitPools(), t0, true, true, initial)
  }

  /** Iteration n + 1 can always run and keeps the run's invariant. */
  lemma IterationKeepsInvariant(env: Environment, cfg: Config, initial: Solution, t0: real, n: nat, s: State, draws: nat -> Draw)
    requires ValidConfig(cfg) && RunInvariant(env, cfg, initial, t0, n, s)
    ensures IterationDrawable(cfg, n + 1, s.pools)
    ensures RunInvariant(env, cfg, initial, t0, n + 1, Iteration(env, cfg, n + 1, s, draws))
  {
    HealthyPoolsDrawable(cfg, n + 1, s.pools);
    var next := Iteration(env, cfg, n + 1, s, draws);
    NoWorseTransitive(Score(env, next.best), Score(env, s.best), Score(env, initial));
    OnlyEmptiesRemovedTransitive(next.initialList, s.initialList, initial);
  }

  /** Iteration n + 1 of a run, from a state that satisfies the run's invariant after n iterations. */
  function Advance(env: Environment, cfg: Config, initial: Solution, t0: real, n: nat, s: State, draws: nat -> Draw): (r: State)
    requires ValidConfig(cfg) && RunInvariant(env, cfg, initial, t0, n, s)
    ensures RunInvariant(env, cfg, initial, t0, n + 1, r)
  {
    IterationKeepsInvariant(env, cfg, initial, t0, n, s, draws);
    Iteration(env, cfg, n + 1, s, draws)
  }

  /**
    What the run reports: the best solution's distance and size, the
    initial list's distance and size as they are at the end of the run,
    and the best solution.
  */
  datatype Report = Report(bestDistance: real, bestRoutes: nat, initialDistance: real, initialRoutes: nat, best: Solution)

  /**
    The search from an initial solution for N iterations, iteration i using
    the draws draws(i). Every pool starts fresh, the temperature starts at
    -(mu * initial distance) / ln 0.5 and is multiplied by epsilon once per
    iteration, and the best solution is never worse than the initial one.
    The initial figures are read from the initial list after the run, which
    has lost empty routes while the best solution was still that list; an
    initial solution without empty routes is reported as it was.
  */
  method Run(env: Environment, cfg: Config, initial: Solution, draws: nat -> nat -> Draw) returns (report: Report, last: State)
    requires ValidConfig(cfg)
    ensures NoWorse(Score(env, last.best), Score(env, initial))
    ensures last.temperature == Cooled(InitialTemperature(cfg, env.distance(initial)), cfg.epsilon, cfg.iterations)
    ensures AllHealthy(last.pools)
    ensures report.best == last.best && report.bestRoutes == |last.best| && report.bestDistance == env.distance(last.best)
    ensures report.initialRoutes == |last.initialList| && report.initialDistance == env.distance(last.initialList)
    ensures report.initialRoutes <= |initial| && OnlyEmptiesRemoved(last.initialList, initial)
    ensures EmptyRoute !in initial ==> report.initialRoutes == |initial| && report.initialDistance == env.distance(initial)
  {
    var t0 := InitialTemperature(cfg, env.distance(initial));
    var s := Start(env, cfg, initial, t0);
    var n := 0;
    while n < cfg.iterations
      invariant n <= cfg.iterations
      invariant RunInvariant(env, cfg, initial, t0, n, s)
    {
      s := Advance(env, cfg, initial, t0, n, s, draws(n + 1));
      n := n + 1;
    }
    last := s;
    report := Report(env.distance(s.best), |s.best|, env.distance(s.initialList), |s.initialList|, s.best);
  }
}
